=== FILE: README.md ===
# Eureka service registry plugin of tenured-go-server, modelled in Dafny

This project models the Eureka plugin of tenured-go-server's service registry:
- `EurekaServiceRegistry`: the subscription table, one poll tick of the per-service health loop, the conversion of Eureka records into registry instances, `Lookup`, and the payload `Register` builds;
- the Eureka REST client (`api.Client`) and the scheme-aware `Agent`: the request each operation sends and the response status it accepts, and the registration record `NewInstanceInfo` builds;
- the default Eureka service attributes;
- the panic/recover helpers `Try`, `TryFinally` and `Catch`.

Go's panics become values, its map and hash-set iteration orders become parameters, and every network call becomes either a request value (what would be sent) or a parameter (what came back).

Files, one module each:
- `wrappers.dfy`: `Option` and `Result`.
- `text.dfy`:
  - `%d` formatting and `strconv.Atoi` (signed decimal, 64-bit range);
  - `net.SplitHostPort`, for addresses without brackets;
  - splitting a URL path at `/`.
- `try.dfy`: `Catch`, `Try`, `TryFinally` over call outcomes (`Normal` or `Panic(v)`).
- `registry.dfy`: the registry-side shapes the plugin uses: `ServerInstance`, the notification kinds, and listeners compared by identity.
- `eureka_attrs.dfy`: `EurekaServiceAttrs` and `newInstance`.
- `eureka_api.dfy`:
  - the REST client's records, `toHttpAction` and the ten client operations;
  - `NewClient` and `NewInstanceInfo`.
- `eureka_agent.dfy`: the agent's `toHttpAction` with a configured scheme, its ten operations, and its `NewInstanceInfo`.
- `eureka_registry.dfy`:
  - the subscription table (`getOrCreateSubscribe`, `addSubscribe`, `removeSubscribe`, `Subscribe`, `Unsubscribe`, `Shutdown`);
  - `convertService`, `Lookup` and `Register`.
- `eureka_poll.dfy`: one pass of the loop in `loadSubscribeHealth`. A pass does the following:
  1. It stops when the subscription is gone or closed.
  2. It skips the pass on a query error.
  3. On the first poll it seeds the snapshot.
  4. Otherwise it diffs the poll against the snapshot and notifies every listener, stopping the loop if a listener panics.

## Model

| member | source | states |
|---|---|---|
| `Try.Catch` | commons/try.go:24-36 | nil maps to no error and every non-nil value to an error; an `error` is kept as is; a string or any other value becomes a new error carrying its text |
| `Try.Try` | commons/try.go:9-16 | `fun` always runs first; a panic leaves the call exactly when `fun` panicked with a non-nil value and the handler panicked too, and it is the handler's panic |
| `Try.TryNormalSkipsHandler` | commons/try.go:9-16 | a call that completes never reaches the handler and lets nothing escape |
| `Try.TryPanicCallsHandlerOnce` | commons/try.go:9-16 | a non-nil panic reaches the handler exactly once, with `Catch` of the panic value, and escapes, as the handler's own panic value, exactly when the handler itself panics |
| `Try.TryFinally` | commons/try.go:19-22 | `finallyFn` runs after everything `Try` runs; its own panic replaces the one in flight, and otherwise `Try`'s escaping panic is kept |
| `Try.TryFinallyRunsFinallyOnceLast` | commons/try.go:19-22 | in every combination of outcomes `finallyFn` runs exactly once and last, and the handler runs as often as under plain `Try` |
| `EurekaAttrs.NewInstance` | commons/registry/eureka/instance.go:25-33 | the defaults: check type `http`, health path `/health`, interval `10s`, deregister `120m`, request timeout `3s` |
| `EurekaAttrs.DefaultDurationsAreNotIntegers` | commons/registry/eureka/instance.go:29-31 | none of the three default durations is accepted by `Atoi` |
| `Text.NatToString` | commons/registry/eureka/registry.go:134 | `%d` of a natural number is a non-empty run of digits with no leading zero |
| `Text.IntToString` | commons/registry/eureka/registry.go:134 | `%d` of an integer starts with `-` exactly when it is negative, and has no colon, bracket or slash |
| `Text.Atoi` | commons/registry/eureka/registry.go:48-53 | succeeds exactly on a signed decimal (optional `+` or `-`, leading zeros allowed) within the 64-bit range, with its value; a failure names the rejected text |
| `Text.AtoiRejectsNonDigit` | commons/registry/eureka/registry.go:51-53 | any text with a non-digit after its first character is rejected |
| `Text.AtoiOfIntToString` | commons/registry/eureka/registry.go:48 | reading back `%d` of any 64-bit integer gives that integer |
| `Text.SplitHostPort` | commons/registry/eureka/registry.go:46 | a split splits at the only colon of an unbracketed address; a missing colon is the missing-port error; every error names the address |
| `Text.SplitHostPortOfJoin` | commons/registry/eureka/registry.go:46 | joining a colon-free host and port with `:` splits back into them |
| `EurekaApi.PathSegmentsOfSegment` | commons/registry/eureka/api/api.go:274-276 | a `/`-prefixed name adds itself to the segments of a path when it is non-empty, and nothing when it is empty |
| `EurekaApi.AppsPathSegments` | commons/registry/eureka/api/api.go:274-282 | the path after `/eureka/apps` splits back into exactly the non-empty names among application, instance and parameter, in that order |
| `EurekaApi.ThreeSegments` | commons/registry/eureka/api/api.go:274-282 | with all three names non-empty and slash-free, the path splits back into exactly those three |
| `EurekaApi.ToHttpAction` | commons/registry/eureka/api/api.go:267-288 | the method is kept and the body is empty; the content type is always JSON; JSON is accepted exactly when asked; the URL is `http://{addr}/eureka/apps` plus the non-empty names |
| `EurekaApi.NewClient` | commons/registry/eureka/api/api.go:290-297 | the client talks to the address it is given |
| `EurekaApi.Registry` | commons/registry/eureka/api/api.go:35-49 | POST of the encoded instance to its application; only 204 is success; the body is the encoded instance, sent with the JSON content type |
| `EurekaApi.Deregister` | commons/registry/eureka/api/api.go:52-66 | DELETE of the instance under its application; only 200 is success; empty body, sent with the JSON content type |
| `EurekaApi.Heartbeat` | commons/registry/eureka/api/api.go:69-83 | PUT to the instance under its application; only 200 is success; empty body, sent with the JSON content type |
| `EurekaApi.QueryInstancesAll` | commons/registry/eureka/api/api.go:86-99 | GET of every application, accepting JSON, with no status check; empty body, sent with the JSON content type |
| `EurekaApi.QueryInstancesToAppId` | commons/registry/eureka/api/api.go:102-115 | GET of one application, accepting JSON, with no status check; empty body, sent with the JSON content type |
| `EurekaApi.QueryInstancesToAppIdAndInstanceId` | commons/registry/eureka/api/api.go:118-131 | GET of one instance of one application, accepting JSON; only 200 is success; empty body, sent with the JSON content type |
| `EurekaApi.QueryInstancesToInstanceId` | commons/registry/eureka/api/api.go:134-147 | GET that puts the instance id where the path has room for it, accepting JSON; only 200 is success; empty body, sent with the JSON content type |
| `EurekaApi.InstanceQueryIsAppQuery` | commons/registry/eureka/api/api.go:134-147 | as written, the instance query sends the same request as the application query for an application named like the instance |
| `EurekaApi.QueryInstanceById` | commons/registry/eureka/api/api.go:133-135 | the intended instance query: GET of `/eureka/instances/{id}`, accepting JSON; empty body, sent with the JSON content type |
| `EurekaApi.InstanceByIdIsNotAppQuery` | commons/registry/eureka/api/api.go:133-135 | the intended instance query never addresses an application |
| `EurekaApi.OutOfInstances` | commons/registry/eureka/api/api.go:150-164 | PUT of the OUT_OF_SERVICE status override on the instance; only 200 is success; empty body, sent with the JSON content type |
| `EurekaApi.RefreshInstances` | commons/registry/eureka/api/api.go:167-181 | DELETE of the status override with UP suggested; only 200 is success; empty body, sent with the JSON content type |
| `EurekaApi.UpdateMetadata` | commons/registry/eureka/api/api.go:184-198 | PUT of the literal metadata query `key=value` on the instance; only 200 is success; empty body, sent with the JSON content type |
| `EurekaApi.InstanceOperationsAddressTheInstance` | commons/registry/eureka/api/api.go:52-83 | for slash-free, non-empty names, deregister and heartbeat address exactly application then instance |
| `EurekaApi.StatusOperationsAddressTheOverride` | commons/registry/eureka/api/api.go:150-181 | the status operations address application, instance and the status parameter, in that order |
| `EurekaApi.NewInstanceInfo` | commons/registry/eureka/api/api.go:300-325 | host and IP are the address; application and both VIP addresses are the service name; UP on the port (plain and secure, enabled); status and health pages extend the home page; MyOwn data centre; the instance's metadata; no lease |
| `EurekaApi.HomePageUrlNamesEndpoint` | commons/registry/eureka/api/api.go:318 | the home page after `http://` splits back into the IP and a port text that reads as the port |
| `EurekaAgent.ToHttpAction` | commons/registry/eureka/agent.go:271-292 | as the client's, but the URL starts with the configured scheme and address |
| `EurekaAgent.HttpSchemeAgreesWithClient` | commons/registry/eureka/agent.go:271-292 | with scheme `http`, the agent's request is the client's request |
| `EurekaAgent.Registry` | commons/registry/eureka/agent.go:36-50 | POST of the encoded instance to its application at the configured URL; only 204 is success; the body is the encoded instance, sent with the JSON content type |
| `EurekaAgent.Deregister` | commons/registry/eureka/agent.go:53-67 | DELETE of the local IP's instance under the application; only 200 is success; empty body, sent with the JSON content type |
| `EurekaAgent.Heartbeat` | commons/registry/eureka/agent.go:70-84 | PUT to the local IP's instance under the application; only 200 is success; empty body, sent with the JSON content type |
| `EurekaAgent.QueryInstancesAll` | commons/registry/eureka/agent.go:87-100 | GET of every application, accepting JSON, with no status check; empty body, sent with the JSON content type |
| `EurekaAgent.QueryInstancesToAppId` | commons/registry/eureka/agent.go:103-116 | GET of one application, accepting JSON, with no status check; empty body, sent with the JSON content type |
| `EurekaAgent.QueryInstancesToAppIdAndInstanceId` | commons/registry/eureka/agent.go:119-132 | GET of the local IP's instance of the application; only 200 is success; empty body, sent with the JSON content type |
| `EurekaAgent.QueryInstancesToInstanceId` | commons/registry/eureka/agent.go:135-148 | GET with the local IP as the only path name; only 200 is success; empty body, sent with the JSON content type |
| `EurekaAgent.OutOfInstances` | commons/registry/eureka/agent.go:151-165 | PUT of the OUT_OF_SERVICE override on the local IP's instance; only 200 is success; empty body, sent with the JSON content type |
| `EurekaAgent.RefreshInstances` | commons/registry/eureka/agent.go:168-182 | DELETE of the override on the local IP's instance, with UP suggested; only 200 is success; empty body, sent with the JSON content type |
| `EurekaAgent.UpdateMetadata` | commons/registry/eureka/agent.go:185-199 | PUT of the literal `key=value` on the local IP's instance; only 200 is success; empty body, sent with the JSON content type |
| `EurekaAgent.NewInstanceInfo` | commons/registry/eureka/agent.go:295-320 | the agent builds exactly the client's registration record, with an `http` home page whatever the agent's scheme |
| `EurekaAgent.InstanceIdIsIgnored` | commons/registry/eureka/agent.go:53-199 | the instance id handed to an instance-level operation never reaches the request |
| `EurekaAgent.AgentAddressesLocalInstance` | commons/registry/eureka/agent.go:53-84 | with scheme `http`, deregister, heartbeat and take-out-of-service send the client's request for the local IP |
| `EurekaRegistry.GetOrCreateSubscribe` | commons/registry/eureka/registry.go:146-156 | the entry for a name is returned, added as open, listener-free and unpolled when missing; no other entry changes |
| `EurekaRegistry.AddSubscribe` | commons/registry/eureka/registry.go:141-145 | the listener joins the set, and the result is true exactly when it is now the only listener |
| `EurekaRegistry.Subscribe` | commons/registry/eureka/registry.go:86-91 | the listener joins the name's set (creating the entry if needed), and every other entry is untouched |
| `EurekaRegistry.SubscribeIdempotent` | commons/registry/eureka/registry.go:86-91 | subscribing the same listener twice equals subscribing it once |
| `EurekaRegistry.ReAddingSoleListenerReportsFirst` | commons/registry/eureka/registry.go:141-145 | re-adding the sole listener still reports it as the first |
| `EurekaRegistry.RemoveSubscribe` | commons/registry/eureka/registry.go:105-109 | the listener leaves the set (creating the entry if missing), the entry's snapshot and closed flag are kept, and the result is true exactly when the set is now empty |
| `EurekaRegistry.Unsubscribe` | commons/registry/eureka/registry.go:94-102 | the entry stays, minus the listener, exactly when other listeners remain; otherwise it is closed and deleted; other entries are untouched |
| `EurekaRegistry.UnsubscribeUnknownName` | commons/registry/eureka/registry.go:94-109 | unsubscribing from an unknown name changes nothing, though a short-lived entry is created and closed |
| `EurekaRegistry.Shutdown` | commons/registry/eureka/registry.go:35-40 | every subscription is closed and the table ends empty |
| `EurekaRegistry.SubscribePreservesWellFormed` | commons/registry/eureka/registry.go:86-91 | subscribing keeps every entry open, listened to and keyed by instance id |
| `EurekaRegistry.UnsubscribePreservesWellFormed` | commons/registry/eureka/registry.go:94-102 | unsubscribing keeps every entry open, listened to and keyed by instance id |
| `EurekaRegistry.Uint` | commons/registry/eureka/registry.go:64 | `uint` of a 64-bit integer is below 2^64, agrees with it modulo 2^64, and keeps non-negative values |
| `EurekaRegistry.ConvertService` | commons/registry/eureka/registry.go:124-138 | the converted instance keeps the Eureka instance id |
| `EurekaRegistry.ConvertedInstanceFields` | commons/registry/eureka/registry.go:124-138 | the service name, the VIP address as the only tag, and the metadata are kept; the status reads "OK" exactly when it was UP or "OK", and is otherwise unchanged; no attributes |
| `EurekaRegistry.ConvertedAddressRoundTrip` | commons/registry/eureka/registry.go:134 | the `ip:port` address splits back into the reported IP and a port that reads as the reported port |
| `EurekaRegistry.ConvertedStatusesDiffer` | commons/registry/eureka/registry.go:125-128 | two converted statuses are equal exactly when the reported ones are, or both are UP or "OK" |
| `EurekaRegistry.Lookup` | commons/registry/eureka/registry.go:112-122 | a query error is returned as is; otherwise every record is converted, in order, and nothing else is returned |
| `EurekaRegistry.Register` | commons/registry/eureka/registry.go:43-73 | missing attributes panic; an address that does not split is rejected with exactly the splitting error, and a port that does not read as an integer with exactly the number error naming it; a registration carries the split host and the port, the client's record, and a lease read from the three durations, with the timeout wrapped as `uint` |
| `EurekaRegistry.RegisterErrorPrecedence` | commons/registry/eureka/registry.go:51-62 | the duration errors are reported in the order deregister, then interval, then request timeout, and registration happens exactly when all three parse |
| `EurekaRegistry.RegisterRoundTrip` | commons/registry/eureka/registry.go:43-70 | an instance at `host:port` with decimal durations registers at that host and port, with exactly that lease |
| `EurekaRegistry.DefaultAttrsAreRejected` | commons/registry/eureka/registry.go:51-56 | an instance using the default attributes is never registered; with a good address the rejection names `120m` |
| `EurekaPoll.IdMap` | commons/registry/eureka/registry.go:190-194 | the seeded snapshot has exactly the polled ids as keys and stores each instance under its own id |
| `EurekaPoll.IdMapOfDistinct` | commons/registry/eureka/registry.go:192-194 | with distinct ids, each polled record is stored converted under its id |
| `EurekaPoll.Scan` | commons/registry/eureka/registry.go:196-205 | after the diff loop, the old snapshot has lost exactly the polled ids, and the new map is the seeded map of the poll |
| `EurekaPoll.RegisterBatch` | commons/registry/eureka/registry.go:200-202 | only new or status-changed instances are announced as registered |
| `EurekaPoll.RegisterBatchHoldsChanged` | commons/registry/eureka/registry.go:200-202 | every new or status-changed polled instance is announced |
| `EurekaPoll.RegisterBatchHoldsPolled` | commons/registry/eureka/registry.go:198-202 | everything announced comes from the poll |
| `EurekaPoll.ScanRegisterMatches` | commons/registry/eureka/registry.go:198-205 | with distinct ids, the in-place diff loop announces exactly the reference batch |
| `EurekaPoll.DuplicateIdReRegisters` | commons/registry/eureka/registry.go:200-204 | a poll listing an unchanged instance twice re-announces it, because the first copy deleted it from the snapshot |
| `EurekaPoll.Vanished` | commons/registry/eureka/registry.go:207-210 | everything announced as gone is marked "deregister" and is a leftover snapshot entry; every leftover whose id the order lists is announced; once each is stated by `EurekaPoll.VanishedAreTheUnpolled` |
| `EurekaPoll.VanishedAreTheUnpolled` | commons/registry/eureka/registry.go:204-210 | announced as gone are exactly the instances of the old snapshot missing from the poll, with status "deregister", no id twice |
| `EurekaPoll.VanishedDistinctIds` | commons/registry/eureka/registry.go:207-210 | walking a repetition-free key order over a snapshot keyed by id announces no id twice |
| `EurekaPoll.ListenerCalls` | commons/registry/eureka/registry.go:213-220 | one call to the one listener per non-empty batch and none otherwise, register first |
| `EurekaPoll.Dispatch` | commons/registry/eureka/registry.go:212-221 | the loop panics exactly when there is something to announce and some scheduled listener fails; then the last call went to a failing listener |
| `EurekaPoll.DispatchCallsScheduled` | commons/registry/eureka/registry.go:212 | only scheduled listeners are called |
| `EurekaPoll.DispatchDeliversToEach` | commons/registry/eureka/registry.go:212-221 | with no failing listener, each listener gets exactly its register and deregister calls, once, and nobody else gets anything |
| `EurekaPoll.DispatchUpToFailure` | commons/registry/eureka/registry.go:212-221 | the calls up to the first failing listener are those of the listeners before it, plus that listener's first call |
| `EurekaPoll.DispatchFailureReaches` | commons/registry/eureka/registry.go:212-221 | listeners before the failing one get their full calls, and the failing one gets its first call only |
| `EurekaPoll.DispatchFailureSilencesLater` | commons/registry/eureka/registry.go:158-163 | listeners after the failing one receive nothing, because the panic ends the loop |
| `EurekaPoll.Diff` | commons/registry/eureka/registry.go:196-222 | a completed diff leaves the poll's map as the snapshot; a failed one leaves the old snapshot minus the polled ids, after a call to a failing listener; only scheduled listeners are called |
| `EurekaPoll.Tick` | commons/registry/eureka/registry.go:169-223 | a missing or closed subscription stops the loop untouched; a query error changes nothing; nothing but the snapshot of that one name changes; only its listeners are called; a stop after calls ends on a failing listener |
| `EurekaPoll.TickSeeds` | commons/registry/eureka/registry.go:190-194 | the first poll only seeds the snapshot and notifies nobody |
| `EurekaPoll.DiffDelivers` | commons/registry/eureka/registry.go:196-222 | with no failing listener, every listener gets the reference register and vanished batches |
| `EurekaPoll.TickDiffs` | commons/registry/eureka/registry.go:196-222 | a later poll with no failing listener replaces the snapshot with the poll's map; each subscribed listener gets its batches, and no one else gets anything |
| `EurekaPoll.DiffListenerFailure` | commons/registry/eureka/registry.go:212-222 | when there is anything to announce, registered or gone, a failing listener stops the diff before line 222, so the snapshot is the old one minus the polled ids, and later listeners hear nothing |
| `EurekaPoll.TickListenerFailure` | commons/registry/eureka/registry.go:158-222 | when there is anything to announce, registered or gone, a failing listener ends the loop with the snapshot left as the old one minus the polled ids |
| `EurekaPoll.RegisterBatchOfUnchanged` | commons/registry/eureka/registry.go:200-202 | a poll with nothing new or changed announces no registration |
| `EurekaPoll.DiffOfOwnMap` | commons/registry/eureka/registry.go:196-222 | diffing a poll against its own map changes nothing and notifies nobody |
| `EurekaPoll.TickIdempotent` | commons/registry/eureka/registry.go:169-223 | polling the same answer again is a fixed point: no calls, the table unchanged, the loop goes on |
| `EurekaPoll.UnsubscribedNameStops` | commons/registry/eureka/registry.go:94-102 | once the last listener unsubscribes, the next tick for that name stops the loop |
| `EurekaPoll.TickPreservesWellFormed` | commons/registry/eureka/registry.go:169-223 | a tick keeps every entry open, listened to and keyed by instance id |

## Left out

- HTTP and JSON are not modelled: no sending, no response reading, no `toRegistry` encoding, no decoding. An operation is modelled as the request it sends plus the status it accepts. The encoded body is a parameter of `Registry`, and the query answer is a parameter of `Lookup` and of a tick.
- `getLocalIP` is defined outside the modelled files, so its answer is the `localIP` parameter of the agent's operations.
- `SplitHostPort` rejects bracketed IPv6 addresses, which `net.SplitHostPort` accepts, because registry addresses in this system are `ip:port`. `Atoi` has one error kind: the range and syntax errors are not told apart.
- Concurrency is not modelled:
  - the `closeChan` select is modelled through the entry's `closed` flag;
  - the goroutine is not modelled, and the busy retry after a query error is one `Continue` step;
  - unsynchronised access to the subscription map is not modelled.
  - The loop is described one tick at a time. Its launch is commented out in `Subscribe`, so the model never starts it.
- `Unregister` (registry.go:76-83) is not modelled: it is client I/O plus an index into the reply.
- `Register`'s final `client.Registry` call is not modelled; the model returns the payload it would send.
- `config.go`, `init.go`, `LoadModel`, `EurekaServiceAttrs.Config` and logging are outside this model. Of the response and registration records (`modle.go`), only the fields the core reads or writes are modelled.
- The `register` and `deregister` batches are modelled as values, which assumes that listeners neither keep nor modify the slice they are handed. In the source every listener of a tick receives the same backing array, and `register[:0]` plus `append` rewrites that array on the next tick. A listener that writes into a batch changes what later listeners see, and one that keeps it sees it change; neither effect is modelled.
- A nil `Port` pointer in a record is not modelled; the port is always present.
- Lease timestamps and the other lease fields Eureka fills in are not modelled.
- EurekaRegistry.ConvertService: its own contract states only that the id is kept. Name, tags, metadata, plugin attributes and status are stated by `ConvertedInstanceFields` and `ConvertedStatusesDiffer`. The address is stated, by `ConvertedAddressRoundTrip`, only for an IP without a colon: for an IPv6 `ipAddr`, which `%s:%d` (registry.go:134) leaves unbracketed, no contract states the address. Keeping these off the function keeps it cheap where the poll and `Lookup` quantify over it.
- EurekaPoll.Tick: `OnNotify` is assumed not to call `Subscribe`, `Unsubscribe` or `Shutdown` on the same registry. Nothing in registry.go:212-221 prevents it. For example, a sole listener that unsubscribes itself from inside `OnNotify` makes `Unsubscribe` delete the name's entry (registry.go:94-102). Dispatch then continues over the copied listener set, and line 222 writes the snapshot into the detached entry. The model's listeners cannot touch the table, so `Tick` keeps the table's keys and listeners unchanged.
- A failing listener is modelled as panicking on the first call it receives. A listener that panics only on its second call is not modelled.
- EurekaRegistry.Register: `pluginAttrs == None` stands for a nil interface, which fails the type assertion and panics before the address is read. A typed-nil `*EurekaServiceAttrs` passes the assertion; the source then still reports an address error first and panics only when it reads the durations. That case is not modelled.
- Try.Try: assumes the `panic(nil)` behaviour of Go before 1.21 (or `GODEBUG=panicnil=1`), where `recover()` returns nil and the handler is not called. From Go 1.21 on, `recover()` returns a `*runtime.PanicNilError`, which is an `error`, so the handler would be called with it. This applies to `TryFinally` too.
- `Shutdown`'s `interrupt` argument is not modelled; the source ignores it too.
- The order in which the maps and the listener set are iterated is the `Schedule` parameter. It is constrained only to enumerate each collection exactly once.
- The agent's `nodeName` cache field and its HTTP client are not modelled; no operation reads them.
- The unexported `secureVipAddress` field is set by `NewInstanceInfo`, but JSON encoding drops it. The model keeps it in the record because encoding is not modelled.

## Findings

| source | as written | input that shows it | evidently intended | confidence | as-written member | corrected member |
|---|---|---|---|---|---|---|
| commons/registry/eureka/api/api.go:133-135 | `QueryInstancesToInstanceId(id)` puts the id in the instance slot with an empty application, so the URL is `http://{addr}/eureka/apps/{id}`: the application query for an application named `id` | any id, e.g. `i-1`: both queries request `/eureka/apps/i-1` | the Eureka REST operation "query for a specific instance id", `GET /eureka/instances/{id}` | medium, not executed | `EurekaApi.InstanceQueryIsAppQuery` | `EurekaApi.QueryInstanceById` |

=== FILE: eureka_agent.dfy ===
/**
 * The scheme-aware Eureka agent (commons/registry/eureka/agent.go, with its
 * `Config` from commons/registry/eureka/api.go). It shares the record shapes and
 * the registration record of the REST client; what differs is that the URL scheme
 * comes from configuration and that every instance-level operation addresses the
 * local machine's IP instead of the instance id it is given. `getLocalIP` is not
 * part of this model, so its answer is a parameter, `localIP`.
 */
module EurekaAgent {
  import opened Wrappers
  import opened EurekaApi
  import opened RegistryModel

  /** The agent's client configuration; the HTTP client it also holds is not modelled. */
  datatype Config = Config(scheme: string, address: string)

  /** `Agent`, as `Client.Agent()` creates it around a client's configuration. */
  datatype Agent = Agent(config: Config)

  /** The URL prefix every request of an agent starts with. */
  function AgentAppsUrl(a: Agent): string {
    AppsBase(a.config.scheme, a.config.address)
  }

  /**
   * `toHttpAction` of the agent: the configured scheme and address, `/eureka/apps`,
   * then the non-empty segments; JSON content type, JSON accepted only when asked.
   */
  function ToHttpAction(httpMethod: string, config: Config, appName: string, instanceId: string, param: string, isJson: bool): (act: HttpAction)
    ensures act.httpMethod == httpMethod && act.body == ""
    ensures act.contentType == JsonContentType
    ensures act.accept == JsonContentType <==> isJson
    ensures !isJson ==> act.accept == ""
    ensures act.url == AppsRequestUrl(config.scheme, config.address, appName, instanceId, param)
  {
    var url := AppsBase(config.scheme, config.address) + AppsPath(appName, instanceId, param);
    HttpAction(httpMethod, url, "", if isJson then JsonContentType else "", JsonContentType)
  }

  /** With the `http` scheme the agent lays out exactly the request the plain client does. */
  lemma HttpSchemeAgreesWithClient(httpMethod: string, config: Config, appName: string, instanceId: string, param: string, isJson: bool)
    requires config.scheme == "http"
    ensures ToHttpAction(httpMethod, config, appName, instanceId, param, isJson)
         == EurekaApi.ToHttpAction(httpMethod, config.address, appName, instanceId, param, isJson)
  {
  }

  /** `Registry`: POST the encoded instance to its application; 204 is success. */
  function Registry(a: Agent, eu: EurekaInstance, body: string): (r: Request)
    ensures r.action.httpMethod == "POST" && r.action.body == body && r.action.accept == ""
    ensures r.action.contentType == JsonContentType
    ensures r.action.url == AgentAppsUrl(a) + AppsPath(eu.app, "", "")
    ensures r.expectedStatus == Some(204)
  {
    Request(ToHttpAction("POST", a.config, eu.app, "", "", false).(body := body), Some(204))
  }

  /** `Deregister`: DELETE the local IP's instance under the application; 200 is success. */
  function Deregister(a: Agent, appName: string, instanceId: string, localIP: string): (r: Request)
    ensures r.action.httpMethod == "DELETE" && r.action.accept == ""
    ensures r.action.body == "" && r.action.contentType == JsonContentType
    ensures r.action.url == AgentAppsUrl(a) + AppsPath(appName, localIP, "")
    ensures r.expectedStatus == Some(200)
  {
    Request(ToHttpAction("DELETE", a.config, appName, localIP, "", false), Some(200))
  }

  /** `Heartbeat`: PUT to the local IP's instance under the application; 200 is success. */
  function Heartbeat(a: Agent, appName: string, instanceId: string, localIP: string): (r: Request)
    ensures r.action.httpMethod == "PUT" && r.action.accept == ""
    ensures r.action.body == "" && r.action.contentType == JsonContentType
    ensures r.action.url == AgentAppsUrl(a) + AppsPath(appName, localIP, "")
    ensures r.expectedStatus == Some(200)
  {
    Request(ToHttpAction("PUT", a.config, appName, localIP, "", false), Some(200))
  }

  /** `QueryInstancesAll`: GET every application as JSON, whatever the status. */
  function QueryInstancesAll(a: Agent): (r: Request)
    ensures r.action.httpMethod == "GET" && r.action.accept == JsonContentType
    ensures r.action.body == "" && r.action.contentType == JsonContentType
    ensures r.action.url == AgentAppsUrl(a) + AppsPath("", "", "")
    ensures r.expectedStatus == None
  {
    Request(ToHttpAction("GET", a.config, "", "", "", true), None)
  }

  /** `QueryInstancesToAppId`: GET one application as JSON, whatever the status. */
  function QueryInstancesToAppId(a: Agent, appName: string): (r: Request)
    ensures r.action.httpMethod == "GET" && r.action.accept == JsonContentType
    ensures r.action.body == "" && r.action.contentType == JsonContentType
    ensures r.action.url == AgentAppsUrl(a) + AppsPath(appName, "", "")
    ensures r.expectedStatus == None
  {
    Request(ToHttpAction("GET", a.config, appName, "", "", true), None)
  }

  /** `QueryInstancesToAppIdAndInstanceId`: GET the local IP's instance of the application; 200 is success. */
  function QueryInstancesToAppIdAndInstanceId(a: Agent, appName: string, instanceId: string, localIP: string): (r: Request)
    ensures r.action.httpMethod == "GET" && r.action.accept == JsonContentType
    ensures r.action.body == "" && r.action.contentType == JsonContentType
    ensures r.action.url == AgentAppsUrl(a) + AppsPath(appName, localIP, "")
    ensures r.expectedStatus == Some(200)
  {
    Request(ToHttpAction("GET", a.config, appName, localIP, "", true), Some(200))
  }

  /** `QueryInstancesToInstanceId`: GET with the local IP where an application name goes; 200 is success. */
  function QueryInstancesToInstanceId(a: Agent, instanceId: string, localIP: string): (r: Request)
    ensures r.action.httpMethod == "GET" && r.action.accept == JsonContentType
    ensures r.action.body == "" && r.action.contentType == JsonContentType
    ensures r.action.url == AgentAppsUrl(a) + AppsPath("", localIP, "")
    ensures r.expectedStatus == Some(200)
  {
    Request(ToHttpAction("GET", a.config, "", localIP, "", true), Some(200))
  }

  /** `OutOfInstances`: PUT the OUT_OF_SERVICE override on the local IP's instance; 200 is success. */
  function OutOfInstances(a: Agent, appName: string, instanceId: string, localIP: string): (r: Request)
    ensures r.action.httpMethod == "PUT" && r.action.accept == ""
    ensures r.action.body == "" && r.action.contentType == JsonContentType
    ensures r.action.url == AgentAppsUrl(a) + AppsPath(appName, localIP, "status?value=OUT_OF_SERVICE")
    ensures r.expectedStatus == Some(200)
  {
    Request(ToHttpAction("PUT", a.config, appName, localIP, "status?value=OUT_OF_SERVICE", false), Some(200))
  }

  /** `RefreshInstances`: DELETE the override on the local IP's instance, suggesting UP; 200 is success. */
  function RefreshInstances(a: Agent, appName: string, instanceId: string, localIP: string): (r: Request)
    ensures r.action.httpMethod == "DELETE" && r.action.accept == ""
    ensures r.action.body == "" && r.action.contentType == JsonContentType
    ensures r.action.url == AgentAppsUrl(a) + AppsPath(appName, localIP, "status?value=UP")
    ensures r.expectedStatus == Some(200)
  {
    Request(ToHttpAction("DELETE", a.config, appName, localIP, "status?value=UP", false), Some(200))
  }

  /** `UpdateMetadata`: PUT the literal query `key=value` on the local IP's instance; 200 is success. */
  function UpdateMetadata(a: Agent, appName: string, instanceId: string, localIP: string): (r: Request)
    ensures r.action.httpMethod == "PUT" && r.action.accept == ""
    ensures r.action.body == "" && r.action.contentType == JsonContentType
    ensures r.action.url == AgentAppsUrl(a) + AppsPath(appName, localIP, "metadata?key=value")
    ensures r.expectedStatus == Some(200)
  {
    Request(ToHttpAction("PUT", a.config, appName, localIP, "metadata?key=value", false), Some(200))
  }

  /**
   * The agent's `NewInstanceInfo`: the same registration record the REST client
   * builds, always advertising `http` on the home, status and health pages whatever
   * scheme the agent itself talks to the registry with.
   */
  function NewInstanceInfo(ipAddrs: string, port: int, serverInstance: ServerInstance): (eu: EurekaInstance)
    ensures eu == EurekaApi.NewInstanceInfo(ipAddrs, port, serverInstance)
    ensures eu.homePageUrl == "http://" + Endpoint(ipAddrs, port)
  {
    var p := Port(port, true);
    var home := "http://" + Endpoint(ipAddrs, port);
    EurekaInstance(
      hostName := ipAddrs,
      app := serverInstance.name,
      ipAddr := ipAddrs,
      vipAddress := serverInstance.name,
      secureVipAddress := serverInstance.name,
      status := UP,
      port := p,
      securePort := p,
      homePageUrl := home,
      statusPageUrl := home + "/info",
      healthCheckUrl := home + "/health",
      dataCenterInfo := DataCenterInfo("MyOwn", DefaultDataCenterClass),
      leaseInfo := None,
      metadata := serverInstance.metadata)
  }

  /**
   * The instance id handed to an instance-level agent operation never reaches the
   * request: any two ids give the same request, the one for the local IP.
   */
  lemma InstanceIdIsIgnored(a: Agent, appName: string, id1: string, id2: string, localIP: string)
    ensures Deregister(a, appName, id1, localIP) == Deregister(a, appName, id2, localIP)
    ensures Heartbeat(a, appName, id1, localIP) == Heartbeat(a, appName, id2, localIP)
    ensures QueryInstancesToAppIdAndInstanceId(a, appName, id1, localIP) == QueryInstancesToAppIdAndInstanceId(a, appName, id2, localIP)
    ensures QueryInstancesToInstanceId(a, id1, localIP) == QueryInstancesToInstanceId(a, id2, localIP)
    ensures OutOfInstances(a, appName, id1, localIP) == OutOfInstances(a, appName, id2, localIP)
    ensures RefreshInstances(a, appName, id1, localIP) == RefreshInstances(a, appName, id2, localIP)
    ensures UpdateMetadata(a, appName, id1, localIP) == UpdateMetadata(a, appName, id2, localIP)
  {
  }

  /**
   * With the `http` scheme an agent's instance-level request is the REST client's
   * request for the same application and the local IP as instance id.
   */
  lemma AgentAddressesLocalInstance(a: Agent, appName: string, instanceId: string, localIP: string)
    requires a.config.scheme == "http"
    ensures Deregister(a, appName, instanceId, localIP).action
         == EurekaApi.Deregister(NewClient(a.config.address), appName, localIP).action
    ensures Heartbeat(a, appName, instanceId, localIP).action
         == EurekaApi.Heartbeat(NewClient(a.config.address), appName, localIP).action
    ensures OutOfInstances(a, appName, instanceId, localIP).action
         == EurekaApi.OutOfInstances(NewClient(a.config.address), appName, localIP).action
  {
    HttpSchemeAgreesWithClient("DELETE", a.config, appName, localIP, "", false);
    HttpSchemeAgreesWithClient("PUT", a.config, appName, localIP, "", false);
    HttpSchemeAgreesWithClient("PUT", a.config, appName, localIP, "status?value=OUT_OF_SERVICE", false);
  }
}

=== FILE: eureka_api.dfy ===
/**
 * The Eureka REST client (commons/registry/eureka/api/api.go and api/modle.go):
 * the record shapes it exchanges, how it lays out a request, which request each
 * client operation sends, and the registration record it builds for an instance.
 * Sending the request and decoding the answer are outside this model: an operation
 * here yields the request and the response status it accepts.
 */
module EurekaApi {
  import opened Wrappers
  import opened Text
  import opened RegistryModel

  const UP: string := "UP"
  const DOWN: string := "DOWN"
  const STARTING: string := "STARTING"
  const OUT_OF_SERVICE: string := "OUT_OF_SERVICE"
  const UNKNOWN: string := "UNKNOWN"

  const JsonContentType: string := "application/json;charset=UTF-8"
  const DefaultDataCenterClass: string := "com.netflix.appinfo.InstanceInfo$DefaultDataCenterInfo"

  datatype PortResult = PortResult(port: int, enabled: bool)

  /** One instance as the Eureka server reports it, reduced to the fields the registry reads. */
  datatype RegistryInfo = RegistryInfo(
    instanceId: string,
    hostName: string,
    app: string,
    ipAddr: string,
    status: string,
    port: PortResult,
    metadata: map<string, string>,
    vipAddress: string)

  datatype Port = Port(port: int, enabled: bool)

  datatype DataCenterInfo = DataCenterInfo(name: string, className: string)

  /** The lease part of a registration; the timestamps are never set by this client and are omitted. */
  datatype LeaseInfo = LeaseInfo(evictionDurationInSecs: nat, renewalIntervalInSecs: int, durationInSecs: int)

  /** The registration record (`EurekaInstance`). */
  datatype EurekaInstance = EurekaInstance(
    hostName: string,
    app: string,
    ipAddr: string,
    vipAddress: string,
    secureVipAddress: string,
    status: string,
    port: Port,
    securePort: Port,
    homePageUrl: string,
    statusPageUrl: string,
    healthCheckUrl: string,
    dataCenterInfo: DataCenterInfo,
    leaseInfo: Option<LeaseInfo>,
    metadata: map<string, string>)

  datatype HttpAction = HttpAction(httpMethod: string, url: string, body: string, accept: string, contentType: string)

  /**
   * A request an operation sends and the response status it treats as success;
   * `None` when the operation reads the body whatever the status.
   */
  datatype Request = Request(action: HttpAction, expectedStatus: Option<int>)

  datatype Client = Client(address: string)

  /** An optional path segment: nothing when empty, otherwise a slash and the text. */
  function Segment(s: string): string {
    if s == "" then "" else "/" + s
  }

  /** The part of a request URL after `/eureka/apps`. */
  function AppsPath(appName: string, instanceId: string, param: string): string {
    Segment(appName) + (Segment(instanceId) + Segment(param))
  }

  /** The non-empty entries of `parts`, in order. */
  function NonEmpty(parts: seq<string>): (r: seq<string>)
    ensures forall i :: 0 <= i < |r| ==> r[i] != "" && r[i] in parts
    decreases |parts|
  {
    if parts == [] then []
    else (if parts[0] == "" then [] else [parts[0]]) + NonEmpty(parts[1..])
  }

  /** Reading a path back: the pieces between the slashes after the leading one. */
  function PathSegments(path: string): seq<string> {
    if path == "" then [] else Split(path[1..], '/')
  }

  lemma {:induction false} PathSegmentsOfSegment(x: string, rest: string)
    requires '/' !in x
    requires rest == "" || rest[0] == '/'
    ensures PathSegments(Segment(x) + rest) == NonEmpty([x]) + PathSegments(rest)
  {
    if x != "" {
      var p := Segment(x) + rest;
      assert p[1..] == x + rest;
      if rest == "" {
        assert x + rest == x;
        SplitWithoutSeparator(x, '/');
      } else {
        assert rest == "/" + rest[1..];
        assert x + rest == x + ['/'] + rest[1..];
        SplitAtSeparator(x, rest[1..], '/');
      }
    } else {
      assert Segment(x) + rest == rest;
    }
  }

  /**
   * The path of a request spells out its non-empty segments in order, so a server
   * splitting on `/` reads back exactly the application, instance and parameter given.
   */
  lemma AppsPathSegments(appName: string, instanceId: string, param: string)
    requires '/' !in appName && '/' !in instanceId && '/' !in param
    ensures PathSegments(AppsPath(appName, instanceId, param)) == NonEmpty([appName, instanceId, param])
  {
    var last := Segment(param);
    var tail := Segment(instanceId) + last;
    SegmentThen(param, "", []);
    assert last + "" == last && [param] + [] == [param];
    SegmentThen(instanceId, last, [param]);
    SegmentThen(appName, tail, [instanceId, param]);
    assert AppsPath(appName, instanceId, param) == Segment(appName) + tail;
  }

  /** One more segment in front of a path adds its name, when non-empty, in front of the names read back. */
  lemma SegmentThen(x: string, rest: string, parts: seq<string>)
    requires '/' !in x
    requires rest == "" || rest[0] == '/'
    requires PathSegments(rest) == NonEmpty(parts)
    ensures PathSegments(Segment(x) + rest) == NonEmpty([x] + parts)
    ensures Segment(x) + rest == "" || (Segment(x) + rest)[0] == '/'
  {
    PathSegmentsOfSegment(x, rest);
    NonEmptyCons(x, parts);
    if x == "" {
      assert Segment(x) + rest == rest;
    }
  }

  lemma NonEmptyCons(x: string, rest: seq<string>)
    ensures NonEmpty([x] + rest) == NonEmpty([x]) + NonEmpty(rest)
  {
    assert ([x] + rest)[1..] == rest;
    assert [x][1..] == [];
  }

  /** `scheme://address/eureka/apps`, the collection every request is addressed under. */
  function AppsBase(scheme: string, address: string): string {
    scheme + "://" + address + "/eureka/apps"
  }

  /** The collection URL followed by the non-empty segments. */
  function AppsRequestUrl(scheme: string, address: string, appName: string, instanceId: string, param: string): string {
    AppsBase(scheme, address) + AppsPath(appName, instanceId, param)
  }

  /**
   * `toHttpAction`: a plain-HTTP URL under `/eureka/apps` followed by the non-empty
   * segments, JSON as the content type, and JSON as the accepted type only when asked.
   */
  function ToHttpAction(httpMethod: string, ipAddr: string, appName: string, instanceId: string, param: string, isJson: bool): (a: HttpAction)
    ensures a.httpMethod == httpMethod && a.body == ""
    ensures a.contentType == JsonContentType
    ensures a.accept == JsonContentType <==> isJson
    ensures !isJson ==> a.accept == ""
    ensures a.url == AppsRequestUrl("http", ipAddr, appName, instanceId, param)
  {
    var url := AppsBase("http", ipAddr) + AppsPath(appName, instanceId, param);
    HttpAction(httpMethod, url, "", if isJson then JsonContentType else "", JsonContentType)
  }

  /** `NewClient`: a client bound to one server address. */
  function NewClient(ipAddr: string): (c: Client)
    ensures c.address == ipAddr
  {
    Client(ipAddr)
  }

  /** The URL prefix every request of a client starts with. */
  function AppsUrl(c: Client): string {
    AppsBase("http", c.address)
  }

  /** `Registry`: POST the encoded instance to its application; 204 is success. */
  function Registry(c: Client, eu: EurekaInstance, body: string): (r: Request)
    ensures r.action.httpMethod == "POST" && r.action.body == body && r.action.accept == ""
    ensures r.action.contentType == JsonContentType
    ensures r.action.url == AppsUrl(c) + AppsPath(eu.app, "", "")
    ensures r.expectedStatus == Some(204)
  {
    Request(ToHttpAction("POST", c.address, eu.app, "", "", false).(body := body), Some(204))
  }

  /** `Deregister`: DELETE the instance under its application; 200 is success. */
  function Deregister(c: Client, appName: string, instanceId: string): (r: Request)
    ensures r.action.httpMethod == "DELETE" && r.action.body == "" && r.action.accept == ""
    ensures r.action.contentType == JsonContentType
    ensures r.action.url == AppsUrl(c) + AppsPath(appName, instanceId, "")
    ensures r.expectedStatus == Some(200)
  {
    Request(ToHttpAction("DELETE", c.address, appName, instanceId, "", false), Some(200))
  }

  /** `Heartbeat`: PUT to the instance under its application; 200 is success. */
  function Heartbeat(c: Client, appName: string, instanceId: string): (r: Request)
    ensures r.action.httpMethod == "PUT" && r.action.body == "" && r.action.accept == ""
    ensures r.action.contentType == JsonContentType
    ensures r.action.url == AppsUrl(c) + AppsPath(appName, instanceId, "")
    ensures r.expectedStatus == Some(200)
  {
    Request(ToHttpAction("PUT", c.address, appName, instanceId, "", false), Some(200))
  }

  /** `QueryInstancesAll`: GET every application as JSON, whatever the status. */
  function QueryInstancesAll(c: Client): (r: Request)
    ensures r.action.httpMethod == "GET" && r.action.accept == JsonContentType
    ensures r.action.body == "" && r.action.contentType == JsonContentType
    ensures r.action.url == AppsUrl(c) + AppsPath("", "", "")
    ensures r.expectedStatus == None
  {
    Request(ToHttpAction("GET", c.address, "", "", "", true), None)
  }

  /** `QueryInstancesToAppId`: GET one application as JSON, whatever the status. */
  function QueryInstancesToAppId(c: Client, appName: string): (r: Request)
    ensures r.action.httpMethod == "GET" && r.action.accept == JsonContentType
    ensures r.action.body == "" && r.action.contentType == JsonContentType
    ensures r.action.url == AppsUrl(c) + AppsPath(appName, "", "")
    ensures r.expectedStatus == None
  {
    Request(ToHttpAction("GET", c.address, appName, "", "", true), None)
  }

  /** `QueryInstancesToAppIdAndInstanceId`: GET one instance of one application; 200 is success. */
  function QueryInstancesToAppIdAndInstanceId(c: Client, appName: string, instanceId: string): (r: Request)
    ensures r.action.httpMethod == "GET" && r.action.accept == JsonContentType
    ensures r.action.body == "" && r.action.contentType == JsonContentType
    ensures r.action.url == AppsUrl(c) + AppsPath(appName, instanceId, "")
    ensures r.expectedStatus == Some(200)
  {
    Request(ToHttpAction("GET", c.address, appName, instanceId, "", true), Some(200))
  }

  /**
   * `QueryInstancesToInstanceId` as written: the application segment is left empty,
   * so the instance id lands where an application name goes.
   */
  function QueryInstancesToInstanceId(c: Client, instanceId: string): (r: Request)
    ensures r.action.httpMethod == "GET" && r.action.accept == JsonContentType
    ensures r.action.body == "" && r.action.contentType == JsonContentType
    ensures r.action.url == AppsUrl(c) + AppsPath("", instanceId, "")
    ensures r.expectedStatus == Some(200)
  {
    Request(ToHttpAction("GET", c.address, "", instanceId, "", true), Some(200))
  }

  /**
   * The request `QueryInstancesToInstanceId(id)` sends is exactly the one
   * `QueryInstancesToAppId(id)` sends: the server is asked for an application named `id`.
   */
  lemma InstanceQueryIsAppQuery(c: Client, instanceId: string)
    ensures QueryInstancesToInstanceId(c, instanceId).action == QueryInstancesToAppId(c, instanceId).action
  {
    assert AppsPath("", instanceId, "") == Segment(instanceId);
    assert AppsPath(instanceId, "", "") == Segment(instanceId);
  }

  /**
   * The lookup by instance id as the Eureka REST interface lays it out: GET
   * `/eureka/instances/{id}` beside, not under, the application collection.
   */
  function QueryInstanceById(c: Client, instanceId: string): (r: Request)
    ensures r.action.httpMethod == "GET" && r.action.accept == JsonContentType
    ensures r.action.body == "" && r.action.contentType == JsonContentType
    ensures r.action.url == "http://" + c.address + "/eureka/instances" + Segment(instanceId)
    ensures r.expectedStatus == Some(200)
  {
    var url := "http://" + c.address + "/eureka/instances" + Segment(instanceId);
    Request(HttpAction("GET", url, "", JsonContentType, JsonContentType), Some(200))
  }

  /** The corrected lookup never sends the request of any application query. */
  lemma InstanceByIdIsNotAppQuery(c: Client, instanceId: string, appName: string)
    ensures QueryInstanceById(c, instanceId).action.url != QueryInstancesToAppId(c, appName).action.url
  {
    var u := QueryInstanceById(c, instanceId).action.url;
    var v := QueryInstancesToAppId(c, appName).action.url;
    var k := |"http://" + c.address + "/eureka/"|;
    assert u[k] == 'i';
    if |v| > k {
      assert v[k] == 'a';
    }
  }

  /** `OutOfInstances`: PUT the OUT_OF_SERVICE status override; 200 is success. */
  function OutOfInstances(c: Client, appName: string, instanceId: string): (r: Request)
    ensures r.action.httpMethod == "PUT" && r.action.accept == ""
    ensures r.action.body == "" && r.action.contentType == JsonContentType
    ensures r.action.url == AppsUrl(c) + AppsPath(appName, instanceId, "status?value=OUT_OF_SERVICE")
    ensures r.expectedStatus == Some(200)
  {
    Request(ToHttpAction("PUT", c.address, appName, instanceId, "status?value=OUT_OF_SERVICE", false), Some(200))
  }

  /** `RefreshInstances`: DELETE the status override, suggesting UP; 200 is success. */
  function RefreshInstances(c: Client, appName: string, instanceId: string): (r: Request)
    ensures r.action.httpMethod == "DELETE" && r.action.accept == ""
    ensures r.action.body == "" && r.action.contentType == JsonContentType
    ensures r.action.url == AppsUrl(c) + AppsPath(appName, instanceId, "status?value=UP")
    ensures r.expectedStatus == Some(200)
  {
    Request(ToHttpAction("DELETE", c.address, appName, instanceId, "status?value=UP", false), Some(200))
  }

  /** `UpdateMetadata`: PUT the literal query `key=value`; 200 is success. */
  function UpdateMetadata(c: Client, appName: string, instanceId: string): (r: Request)
    ensures r.action.httpMethod == "PUT" && r.action.accept == ""
    ensures r.action.body == "" && r.action.contentType == JsonContentType
    ensures r.action.url == AppsUrl(c) + AppsPath(appName, instanceId, "metadata?key=value")
    ensures r.expectedStatus == Some(200)
  {
    Request(ToHttpAction("PUT", c.address, appName, instanceId, "metadata?key=value", false), Some(200))
  }

  /**
   * For an application and instance named without slashes, `Deregister` and
   * `Heartbeat` address exactly the path `[app, id]` under the application collection.
   */
  lemma InstanceOperationsAddressTheInstance(c: Client, appName: string, instanceId: string)
    requires appName != "" && instanceId != ""
    requires '/' !in appName && '/' !in instanceId
    ensures PathSegments(Deregister(c, appName, instanceId).action.url[|AppsUrl(c)|..]) == [appName, instanceId]
    ensures PathSegments(Heartbeat(c, appName, instanceId).action.url[|AppsUrl(c)|..]) == [appName, instanceId]
  {
    var path := AppsPath(appName, instanceId, "");
    AppsPathSegments(appName, instanceId, "");
    NonEmptyCons(appName, [instanceId, ""]);
    NonEmptyCons(instanceId, [""]);
    assert NonEmpty([appName, instanceId, ""]) == [appName, instanceId];
    assert Deregister(c, appName, instanceId).action.url == AppsUrl(c) + path;
    assert Heartbeat(c, appName, instanceId).action.url == AppsUrl(c) + path;
    assert (AppsUrl(c) + path)[|AppsUrl(c)|..] == path;
  }

  /**
   * For an application and instance named without slashes, the two status-override
   * operations address `[app, id, status?value=…]`.
   */
  lemma StatusOperationsAddressTheOverride(c: Client, appName: string, instanceId: string)
    requires appName != "" && instanceId != ""
    requires '/' !in appName && '/' !in instanceId
    ensures PathSegments(OutOfInstances(c, appName, instanceId).action.url[|AppsUrl(c)|..])
      == [appName, instanceId, "status?value=OUT_OF_SERVICE"]
    ensures PathSegments(RefreshInstances(c, appName, instanceId).action.url[|AppsUrl(c)|..])
      == [appName, instanceId, "status?value=UP"]
  {
    var out := "status?value=OUT_OF_SERVICE";
    var up := "status?value=UP";
    ThreeSegments(appName, instanceId, out);
    ThreeSegments(appName, instanceId, up);
    assert (AppsUrl(c) + AppsPath(appName, instanceId, out))[|AppsUrl(c)|..] == AppsPath(appName, instanceId, out);
    assert (AppsUrl(c) + AppsPath(appName, instanceId, up))[|AppsUrl(c)|..] == AppsPath(appName, instanceId, up);
  }

  lemma ThreeSegments(appName: string, instanceId: string, param: string)
    requires appName != "" && instanceId != "" && param != ""
    requires '/' !in appName && '/' !in instanceId && '/' !in param
    ensures PathSegments(AppsPath(appName, instanceId, param)) == [appName, instanceId, param]
  {
    AppsPathSegments(appName, instanceId, param);
    NonEmptyCons(param, []);
    NonEmptyCons(instanceId, [param]);
    NonEmptyCons(appName, [instanceId, param]);
  }

  /** `ip:port`, the endpoint a registration advertises. */
  function Endpoint(ipAddrs: string, port: int): string {
    ipAddrs + ":" + IntToString(port)
  }

  /** `http://ip:port`, the root every derived URL of a registration extends. */
  function HomePageUrl(ipAddrs: string, port: int): string {
    "http://" + Endpoint(ipAddrs, port)
  }

  /**
   * `NewInstanceInfo`: host name and IP are both the given address, the application
   * and both VIP addresses are the instance's service name, the instance is UP on
   * the given port (plain and secure alike), the status and health pages extend the
   * home page, the metadata is the instance's own, and no lease is attached.
   */
  function NewInstanceInfo(ipAddrs: string, port: int, serverInstance: ServerInstance): (eu: EurekaInstance)
    ensures eu.hostName == ipAddrs && eu.ipAddr == ipAddrs
    ensures eu.app == serverInstance.name && eu.vipAddress == serverInstance.name
    ensures eu.secureVipAddress == serverInstance.name
    ensures eu.status == UP
    ensures eu.port == Port(port, true) && eu.securePort == eu.port
    ensures eu.homePageUrl == HomePageUrl(ipAddrs, port)
    ensures eu.statusPageUrl == eu.homePageUrl + "/info"
    ensures eu.healthCheckUrl == eu.homePageUrl + "/health"
    ensures eu.dataCenterInfo == DataCenterInfo("MyOwn", DefaultDataCenterClass)
    ensures eu.metadata == serverInstance.metadata
    ensures eu.leaseInfo == None
  {
    var p := Port(port, true);
    EurekaInstance(
      hostName := ipAddrs,
      app := serverInstance.name,
      ipAddr := ipAddrs,
      vipAddress := serverInstance.name,
      secureVipAddress := serverInstance.name,
      status := UP,
      port := p,
      securePort := p,
      homePageUrl := HomePageUrl(ipAddrs, port),
      statusPageUrl := HomePageUrl(ipAddrs, port) + "/info",
      healthCheckUrl := HomePageUrl(ipAddrs, port) + "/health",
      dataCenterInfo := DataCenterInfo("MyOwn", DefaultDataCenterClass),
      leaseInfo := None,
      metadata := serverInstance.metadata)
  }

  /**
   * The home page URL names the registered endpoint: after `http://` it splits back
   * into the IP and a port text that `Atoi` reads as the registered port.
   */
  lemma HomePageUrlNamesEndpoint(ipAddrs: string, port: int, serverInstance: ServerInstance)
    requires PlainAddrPart(ipAddrs)
    requires MinInt64 <= port <= MaxInt64
    ensures NewInstanceInfo(ipAddrs, port, serverInstance).homePageUrl == "http://" + Endpoint(ipAddrs, port)
    ensures SplitHostPort(Endpoint(ipAddrs, port)) == Ok((ipAddrs, IntToString(port)))
    ensures Atoi(IntToString(port)) == Ok(port)
  {
    SplitHostPortOfJoin(ipAddrs, IntToString(port));
    AtoiOfIntToString(port);
  }
}

=== FILE: eureka_attrs.dfy ===
/** The Eureka backend's tunables (commons/registry/eureka/instance.go). */
module EurekaAttrs {
  import opened Text

  /**
   * `EurekaServiceAttrs`: every tunable is kept as text; `Register` later reads
   * `Interval`, `Deregister` and `RequestTimeout` as whole numbers of seconds.
   */
  datatype EurekaServiceAttrs = EurekaServiceAttrs(
    checkType: string,
    health: string,
    interval: string,
    deregister: string,
    requestTimeout: string)

  /** `newInstance`: the attribute record a fresh Eureka server instance starts from. */
  function NewInstance(): (a: EurekaServiceAttrs)
    ensures a.checkType == "http" && a.health == "/health"
    ensures a.interval == "10s" && a.deregister == "120m" && a.requestTimeout == "3s"
  {
    EurekaServiceAttrs(
      checkType := "http",
      health := "/health",
      interval := "10s",
      deregister := "120m",
      requestTimeout := "3s")
  }

  /**
   * The three duration defaults carry a unit suffix, so none of them is the plain
   * decimal `Atoi` accepts.
   */
  lemma DefaultDurationsAreNotIntegers()
    ensures Atoi(NewInstance().interval).Err?
    ensures Atoi(NewInstance().deregister).Err?
    ensures Atoi(NewInstance().requestTimeout).Err?
  {
    AtoiRejectsNonDigit("10s", 2);
    AtoiRejectsNonDigit("120m", 3);
    AtoiRejectsNonDigit("3s", 1);
  }
}

=== FILE: eureka_poll.dfy ===
/**
 * One tick of the Eureka subscription poll (the loop body of `loadSubscribeHealth`
 * in commons/registry/eureka/registry.go) as a pure step on the subscription table.
 *
 * A tick looks the name up, stops when the entry is missing or closed, and skips
 * when the query failed. Otherwise the first successful poll seeds the snapshot
 * without notifying anybody, and every later one diffs the poll against the
 * snapshot, notifies the listeners and replaces the snapshot.
 *
 * Go leaves two iteration orders unspecified, that of the listener set and that of
 * the old snapshot; a `Schedule` supplies both. Which listeners panic in `OnNotify`
 * is a parameter as well. A panic is recovered only by the deferred handler of the
 * whole loop, so it ends the polling of that name.
 */
module EurekaPoll {
  import opened Wrappers
  import opened RegistryModel
  import opened EurekaApi
  import opened EurekaRegistry

  /** Whether the polling loop goes on to another tick. */
  datatype Loop = Continue | Stop

  /** One `OnNotify(status, batch)` call on a listener. */
  datatype Notify = Notify(listener: Listener, status: RegistionStatus, batch: seq<ServerInstance>)

  /** The iteration orders of the listener set and of the old snapshot's ids in one tick. */
  datatype Schedule = Schedule(listenerOrder: seq<Listener>, snapshotOrder: seq<string>)

  predicate Distinct<T(==)>(s: seq<T>) {
    forall i, j :: 0 <= i < j < |s| ==> s[i] != s[j]
  }

  /** `order` lists every element of `s` exactly once: a possible iteration order of `s`. */
  predicate Enumerates<T(==)>(order: seq<T>, s: set<T>) {
    && Distinct(order)
    && (forall i :: 0 <= i < |order| ==> order[i] in s)
    && (forall x :: x in s ==> x in order)
  }

  /** The schedule is a possible iteration order of what the tick iterates over. */
  predicate ValidSchedule(t: Table, name: string, sched: Schedule) {
    name in t ==>
      && Enumerates(sched.listenerOrder, t[name].listeners)
      && (t[name].snapshot.Some? ==> Enumerates(sched.snapshotOrder, t[name].snapshot.value.Keys))
  }

  /** The instance ids of a poll. */
  function Ids(poll: seq<RegistryInfo>): set<string> {
    set i | 0 <= i < |poll| :: poll[i].instanceId
  }

  lemma IdsOfSnoc(poll: seq<RegistryInfo>)
    requires poll != []
    ensures Ids(poll) == Ids(poll[..|poll| - 1]) + {poll[|poll| - 1].instanceId}
  {
    var front := poll[..|poll| - 1];
    forall id | id in Ids(poll)
      ensures id in Ids(front) + {poll[|poll| - 1].instanceId}
    {
      var i :| 0 <= i < |poll| && poll[i].instanceId == id;
      if i < |poll| - 1 {
        assert front[i].instanceId == id;
      }
    }
    forall id | id in Ids(front)
      ensures id in Ids(poll)
    {
      var i :| 0 <= i < |front| && front[i].instanceId == id;
      assert poll[i].instanceId == id;
    }
  }

  /** No instance id occurs twice in the poll. */
  predicate DistinctIds(poll: seq<RegistryInfo>) {
    forall i, j :: 0 <= i < j < |poll| ==> poll[i].instanceId != poll[j].instanceId
  }

  lemma DistinctIdsOfFront(poll: seq<RegistryInfo>)
    requires poll != [] && DistinctIds(poll)
    ensures DistinctIds(poll[..|poll| - 1])
    ensures poll[|poll| - 1].instanceId !in Ids(poll[..|poll| - 1])
  {
    var front := poll[..|poll| - 1];
    forall i, j | 0 <= i < j < |front|
      ensures front[i].instanceId != front[j].instanceId
    {
      assert front[i] == poll[i] && front[j] == poll[j];
    }
  }

  /**
   * The map the seeding loop and the diff loop build: each polled record, converted,
   * under its instance id, a later record overwriting an earlier one with the same id.
   */
  function IdMap(name: string, poll: seq<RegistryInfo>): (m: Snapshot)
    ensures m.Keys == Ids(poll)
    ensures KeyedById(m)
    decreases |poll|
  {
    if poll == [] then map[]
    else
      var last := poll[|poll| - 1];
      IdsOfSnoc(poll);
      IdMap(name, poll[..|poll| - 1])[last.instanceId := ConvertService(name, last)]
  }

  /** With distinct ids, the map holds each polled record converted. */
  lemma IdMapOfDistinct(name: string, poll: seq<RegistryInfo>)
    requires DistinctIds(poll)
    ensures forall i :: 0 <= i < |poll| ==> IdMap(name, poll)[poll[i].instanceId] == ConvertService(name, poll[i])
  {
    forall i | 0 <= i < |poll|
      ensures IdMap(name, poll)[poll[i].instanceId] == ConvertService(name, poll[i])
    {
      IdMapAt(name, poll, i);
    }
  }

  lemma {:induction false} IdMapAt(name: string, poll: seq<RegistryInfo>, i: nat)
    requires DistinctIds(poll)
    requires i < |poll|
    ensures IdMap(name, poll)[poll[i].instanceId] == ConvertService(name, poll[i])
    decreases |poll|
  {
    var front := poll[..|poll| - 1];
    var last := poll[|poll| - 1];
    if i < |poll| - 1 {
      DistinctIdsOfFront(poll);
      IdMapAt(name, front, i);
      assert front[i] == poll[i];
      assert poll[i].instanceId != last.instanceId;
    }
  }

  /** A polled record is reported when its id is new or its converted status differs from the old one. */
  predicate Changed(before: Snapshot, current: ServerInstance) {
    current.id !in before || current.status != before[current.id].status
  }

  /** Where the diff loop stands: the old snapshot with the polled ids deleted, the register batch, the new map. */
  datatype ScanState = ScanState(remaining: Snapshot, register: seq<ServerInstance>, current: Snapshot)

  /**
   * The diff loop over the poll, in poll order. It deletes each polled id from the
   * old snapshot as it goes, so a record is compared with what is left of the
   * snapshot, not with the snapshot as the tick found it.
   */
  function Scan(name: string, prev: Snapshot, poll: seq<RegistryInfo>): (s: ScanState)
    ensures s.remaining == prev - Ids(poll)
    ensures s.current == IdMap(name, poll)
    decreases |poll|
  {
    if poll == [] then ScanState(prev, [], map[])
    else
      var s := Scan(name, prev, poll[..|poll| - 1]);
      var last := poll[|poll| - 1];
      var current := ConvertService(name, last);
      IdsOfSnoc(poll);
      ScanState(
        s.remaining - {last.instanceId},
        s.register + (if Changed(s.remaining, current) then [current] else []),
        s.current[last.instanceId := current])
  }

  /** The register batch by its definition: the converted polled records that changed against `prev`, in poll order. */
  function RegisterBatch(name: string, prev: Snapshot, poll: seq<RegistryInfo>): (batch: seq<ServerInstance>)
    ensures forall x :: x in batch ==> Changed(prev, x)
    decreases |poll|
  {
    if poll == [] then []
    else
      var current := ConvertService(name, poll[|poll| - 1]);
      RegisterBatch(name, prev, poll[..|poll| - 1]) + (if Changed(prev, current) then [current] else [])
  }

  /** Every polled record that changed is in the register batch. */
  lemma {:induction false} RegisterBatchHoldsChanged(name: string, prev: Snapshot, poll: seq<RegistryInfo>, i: nat)
    requires i < |poll| && Changed(prev, ConvertService(name, poll[i]))
    ensures ConvertService(name, poll[i]) in RegisterBatch(name, prev, poll)
    decreases |poll|
  {
    if i < |poll| - 1 {
      var front := poll[..|poll| - 1];
      assert front[i] == poll[i];
      RegisterBatchHoldsChanged(name, prev, front, i);
    }
  }

  /** Every member of the register batch is a polled record, converted. */
  lemma {:induction false} RegisterBatchHoldsPolled(name: string, prev: Snapshot, poll: seq<RegistryInfo>, x: ServerInstance)
    requires x in RegisterBatch(name, prev, poll)
    ensures exists i :: 0 <= i < |poll| && x == ConvertService(name, poll[i])
    decreases |poll|
  {
    var front := poll[..|poll| - 1];
    if x in RegisterBatch(name, prev, front) {
      RegisterBatchHoldsPolled(name, prev, front, x);
      var i :| 0 <= i < |front| && x == ConvertService(name, front[i]);
      assert front[i] == poll[i];
    }
  }

  /** With distinct ids the diff loop's register batch is exactly `RegisterBatch`. */
  lemma {:induction false} ScanRegisterMatches(name: string, prev: Snapshot, poll: seq<RegistryInfo>)
    requires DistinctIds(poll)
    ensures Scan(name, prev, poll).register == RegisterBatch(name, prev, poll)
    decreases |poll|
  {
    if poll != [] {
      var front := poll[..|poll| - 1];
      var last := poll[|poll| - 1];
      DistinctIdsOfFront(poll);
      ScanRegisterMatches(name, prev, front);
      var remaining := Scan(name, prev, front).remaining;
      var current := ConvertService(name, last);
      assert Changed(remaining, current) == Changed(prev, current);
    }
  }

  /** An id appearing twice re-registers its record even when nothing about it changed. */
  lemma DuplicateIdReRegisters(name: string, prev: Snapshot, info: RegistryInfo)
    requires info.instanceId in prev
    requires prev[info.instanceId].status == ConvertService(name, info).status
    ensures RegisterBatch(name, prev, [info, info]) == []
    ensures Scan(name, prev, [info, info]).register == [ConvertService(name, info)]
  {
    var poll := [info, info];
    var id := info.instanceId;
    assert poll[..1] == [info];
    assert [info][..0] == [];
    assert Ids([info]) == {id} by {
      assert [info][0].instanceId == id;
    }
    assert RegisterBatch(name, prev, [info]) == RegisterBatch(name, prev, []) + [];
    assert RegisterBatch(name, prev, poll) == RegisterBatch(name, prev, [info]) + [];
    assert Scan(name, prev, []) == ScanState(prev, [], map[]);
    var s1 := Scan(name, prev, [info]);
    assert s1.register == [];
    assert s1.remaining == prev - {id};
    assert !Changed(prev, ConvertService(name, info));
  }

  /**
   * The deregister batch: what is left of the old snapshot, in the schedule's order,
   * each with its status forced to "deregister".
   */
  function Vanished(order: seq<string>, remaining: Snapshot): (batch: seq<ServerInstance>)
    ensures forall x :: x in batch ==> x.status == "deregister"
    ensures forall x :: x in batch ==> exists id :: id in remaining && x == remaining[id].(status := "deregister")
    ensures forall id :: id in remaining && id in order ==> remaining[id].(status := "deregister") in batch
    ensures |batch| <= |order|
    decreases |order|
  {
    if order == [] then []
    else
      var rest := Vanished(order[1..], remaining);
      assert forall id :: id in order && id != order[0] ==> id in order[1..];
      (if order[0] in remaining then [remaining[order[0]].(status := "deregister")] else []) + rest
  }

  /** The calls one listener gets in a tick: the register batch, then the deregister batch, each only when non-empty. */
  function ListenerCalls(l: Listener, register: seq<ServerInstance>, deregister: seq<ServerInstance>): (calls: seq<Notify>)
    ensures |calls| == (if register != [] then 1 else 0) + (if deregister != [] then 1 else 0)
    ensures calls == [] <==> register == [] && deregister == []
    ensures forall c :: c in calls ==> c.listener == l
    ensures register != [] ==> calls[0] == Notify(l, REGISTER, register)
    ensures deregister != [] ==> calls[|calls| - 1] == Notify(l, UNREGISTER, deregister)
  {
    (if register != [] then [Notify(l, REGISTER, register)] else [])
    + (if deregister != [] then [Notify(l, UNREGISTER, deregister)] else [])
  }

  /** Some listener of the order panics when called. */
  predicate SomeFailing(order: seq<Listener>, failing: set<Listener>)
    decreases |order|
  {
    order != [] && (order[0] in failing || SomeFailing(order[1..], failing))
  }

  /** The calls made while dispatching, and whether a listener panicked. */
  datatype Delivery = Delivery(calls: seq<Notify>, panicked: bool)

  /**
   * The dispatch loop: listeners in the schedule's order, each given its calls; the
   * first call that reaches a failing listener panics, and nothing runs after it.
   */
  function Dispatch(order: seq<Listener>, register: seq<ServerInstance>, deregister: seq<ServerInstance>, failing: set<Listener>): (d: Delivery)
    ensures d.panicked <==> (register != [] || deregister != []) && SomeFailing(order, failing)
    ensures d.panicked ==> d.calls != [] && d.calls[|d.calls| - 1].listener in failing
    decreases |order|
  {
    if order == [] then Delivery([], false)
    else
      var l := order[0];
      var mine := ListenerCalls(l, register, deregister);
      if l in failing && mine != [] then Delivery([mine[0]], true)
      else
        var rest := Dispatch(order[1..], register, deregister, failing);
        Delivery(mine + rest.calls, rest.panicked)
  }

  /** Only scheduled listeners are called. */
  lemma {:induction false} DispatchCallsScheduled(order: seq<Listener>, register: seq<ServerInstance>, deregister: seq<ServerInstance>, failing: set<Listener>)
    ensures forall c :: c in Dispatch(order, register, deregister, failing).calls ==> c.listener in order
    decreases |order|
  {
    if order != [] {
      DispatchCallsScheduled(order[1..], register, deregister, failing);
      assert forall x :: x in order[1..] ==> x in order;
    }
  }

  /** The calls addressed to `l`, in the order they were made. */
  function Received(calls: seq<Notify>, l: Listener): seq<Notify>
    decreases |calls|
  {
    if calls == [] then []
    else (if calls[0].listener == l then [calls[0]] else []) + Received(calls[1..], l)
  }

  lemma {:induction false} ReceivedAppend(a: seq<Notify>, b: seq<Notify>, l: Listener)
    ensures Received(a + b, l) == Received(a, l) + Received(b, l)
    decreases |a|
  {
    if a == [] {
      assert a + b == b;
    } else {
      ReceivedAppend(a[1..], b, l);
      assert (a + b)[1..] == a[1..] + b;
    }
  }

  lemma ReceivedOwnCalls(calls: seq<Notify>, l0: Listener, l: Listener)
    requires |calls| <= 2
    requires forall c :: c in calls ==> c.listener == l0
    ensures Received(calls, l) == if l == l0 then calls else []
  {
    if calls != [] {
      assert calls[0] in calls;
      if |calls| == 2 {
        assert calls[1] in calls;
        assert calls[1..][1..] == [];
      }
    }
  }

  /** The calls `l` should get in a tick when nothing fails: its own calls if it is scheduled, none otherwise. */
  function Expected(l: Listener, order: seq<Listener>, register: seq<ServerInstance>, deregister: seq<ServerInstance>): seq<Notify> {
    if l in order then ListenerCalls(l, register, deregister) else []
  }

  /**
   * With no failing listener, each scheduled listener gets exactly its register and
   * deregister calls, in that order, once; nobody else gets anything.
   */
  lemma {:induction false} DispatchDeliversToEach(order: seq<Listener>, register: seq<ServerInstance>, deregister: seq<ServerInstance>, failing: set<Listener>)
    requires Distinct(order)
    requires forall i :: 0 <= i < |order| ==> order[i] !in failing
    ensures !Dispatch(order, register, deregister, failing).panicked
    ensures forall l :: Received(Dispatch(order, register, deregister, failing).calls, l) == Expected(l, order, register, deregister)
    decreases |order|
  {
    if order != [] {
      var l0 := order[0];
      var mine := ListenerCalls(l0, register, deregister);
      var tail := order[1..];
      assert Distinct(tail) by {
        forall i, j | 0 <= i < j < |tail| ensures tail[i] != tail[j] {
          assert tail[i] == order[i + 1] && tail[j] == order[j + 1];
        }
      }
      DispatchDeliversToEach(tail, register, deregister, failing);
      var rest := Dispatch(tail, register, deregister, failing);
      assert l0 !in tail;
      forall l
        ensures Received(mine + rest.calls, l) == Expected(l, order, register, deregister)
      {
        ReceivedAppend(mine, rest.calls, l);
        ReceivedOwnCalls(mine, l0, l);
        assert l in order <==> l == l0 || l in tail;
      }
    }
  }

  /**
   * A failing listener ends the dispatch: what was delivered is everything the
   * listeners scheduled before it got, followed by its own first call.
   */
  lemma {:induction false} DispatchUpToFailure(order: seq<Listener>, register: seq<ServerInstance>, deregister: seq<ServerInstance>, failing: set<Listener>, k: nat)
    requires k < |order| && order[k] in failing
    requires forall j :: 0 <= j < k ==> order[j] !in failing
    requires register != [] || deregister != []
    ensures Dispatch(order, register, deregister, failing).panicked
    ensures Dispatch(order, register, deregister, failing).calls
         == Dispatch(order[..k], register, deregister, failing).calls + [ListenerCalls(order[k], register, deregister)[0]]
    decreases k
  {
    if k == 0 {
      DispatchFailingFirst(order, register, deregister, failing);
      assert order[..0] == [];
    } else {
      var tail := order[1..];
      assert tail[k - 1] == order[k];
      DispatchUpToFailure(tail, register, deregister, failing, k - 1);
      DispatchPrefixStep(order, register, deregister, failing, k, ListenerCalls(order[k], register, deregister)[0]);
    }
  }

  /**
   * The inductive step of `DispatchUpToFailure`: a passing first listener puts its
   * own calls in front of both sides.
   */
  lemma DispatchPrefixStep(order: seq<Listener>, register: seq<ServerInstance>, deregister: seq<ServerInstance>, failing: set<Listener>, k: nat, c: Notify)
    requires 0 < k <= |order| && order[0] !in failing
    requires Dispatch(order[1..], register, deregister, failing).calls == Dispatch(order[1..][..k - 1], register, deregister, failing).calls + [c]
    ensures Dispatch(order, register, deregister, failing).calls == Dispatch(order[..k], register, deregister, failing).calls + [c]
  {
    var front := order[..k];
    DispatchPassing(order, register, deregister, failing);
    assert front[0] == order[0] && front[1..] == order[1..][..k - 1];
    DispatchPassing(front, register, deregister, failing);
    SnocAfterPrefix(ListenerCalls(order[0], register, deregister), Dispatch(order[1..][..k - 1], register, deregister, failing).calls, [c]);
  }

  lemma SnocAfterPrefix<T>(a: seq<T>, b: seq<T>, c: seq<T>)
    ensures a + (b + c) == (a + b) + c
  {
  }

  /** A failing listener with something to hear gets its first call, and the dispatch ends there. */
  lemma DispatchFailingFirst(order: seq<Listener>, register: seq<ServerInstance>, deregister: seq<ServerInstance>, failing: set<Listener>)
    requires order != [] && order[0] in failing
    requires register != [] || deregister != []
    ensures Dispatch(order, register, deregister, failing) == Delivery([ListenerCalls(order[0], register, deregister)[0]], true)
  {
  }

  /** A listener that does not fail gets its calls, and the dispatch goes on to the others. */
  lemma DispatchPassing(order: seq<Listener>, register: seq<ServerInstance>, deregister: seq<ServerInstance>, failing: set<Listener>)
    requires order != [] && order[0] !in failing
    ensures Dispatch(order, register, deregister, failing).calls
         == ListenerCalls(order[0], register, deregister) + Dispatch(order[1..], register, deregister, failing).calls
    ensures Dispatch(order, register, deregister, failing).panicked == Dispatch(order[1..], register, deregister, failing).panicked
  {
  }

  /**
   * Who hears what when a listener fails: listeners before the first failing one get
   * all their calls, the failing one its first call, and every later one nothing.
   */
  lemma DispatchFailureReaches(order: seq<Listener>, register: seq<ServerInstance>, deregister: seq<ServerInstance>, failing: set<Listener>, k: nat, j: nat)
    requires Distinct(order)
    requires k < |order| && order[k] in failing
    requires forall i :: 0 <= i < k ==> order[i] !in failing
    requires register != [] || deregister != []
    requires j < |order|
    ensures Received(Dispatch(order, register, deregister, failing).calls, order[j])
         == (if j < k then ListenerCalls(order[j], register, deregister) else [])
            + (if j == k then [ListenerCalls(order[k], register, deregister)[0]] else [])
  {
    var front := order[..k];
    var first := ListenerCalls(order[k], register, deregister)[0];
    DispatchUpToFailure(order, register, deregister, failing, k);
    assert Distinct(front) by {
      forall i, i' | 0 <= i < i' < |front| ensures front[i] != front[i'] {
        assert front[i] == order[i] && front[i'] == order[i'];
      }
    }
    DispatchDeliversToEach(front, register, deregister, failing);
    ReceivedAppend(Dispatch(front, register, deregister, failing).calls, [first], order[j]);
    ReceivedOwnCalls([first], order[k], order[j]);
    assert order[j] in front <==> j < k;
  }

  lemma DispatchFailureSilencesLater(order: seq<Listener>, register: seq<ServerInstance>, deregister: seq<ServerInstance>, failing: set<Listener>, k: nat)
    requires Distinct(order)
    requires k < |order| && order[k] in failing
    requires forall j :: 0 <= j < k ==> order[j] !in failing
    requires register != [] || deregister != []
    ensures forall j :: k < j < |order| ==> Received(Dispatch(order, register, deregister, failing).calls, order[j]) == []
  {
    forall j | k < j < |order|
      ensures Received(Dispatch(order, register, deregister, failing).calls, order[j]) == []
    {
      DispatchFailureReaches(order, register, deregister, failing, k, j);
    }
  }

  /** What a tick leaves behind: the table, the notifications it made, and whether the loop goes on. */
  datatype TickResult = TickResult(table: Table, calls: seq<Notify>, next: Loop)

  /** What the diff branch of a tick produces: the new snapshot, the calls made, and whether the loop goes on. */
  datatype DiffResult = DiffResult(snapshot: Snapshot, calls: seq<Notify>, next: Loop)

  /**
   * The diff branch of a tick: scan the poll, collect what vanished, dispatch, then
   * keep the new map or, when a listener panicked, the old snapshot with the polled
   * ids deleted, since the assignment after the dispatch loop is never reached.
   */
  function Diff(name: string, prev: Snapshot, poll: seq<RegistryInfo>, sched: Schedule, failing: set<Listener>): (r: DiffResult)
    ensures r.next == Continue ==> r.snapshot == IdMap(name, poll)
    ensures r.next == Stop ==> r.snapshot == prev - Ids(poll) && r.calls != [] && r.calls[|r.calls| - 1].listener in failing
    ensures forall c :: c in r.calls ==> c.listener in sched.listenerOrder
    ensures KeyedById(prev) ==> KeyedById(r.snapshot)
  {
    var s := Scan(name, prev, poll);
    var d := Dispatch(sched.listenerOrder, s.register, Vanished(sched.snapshotOrder, s.remaining), failing);
    DispatchCallsScheduled(sched.listenerOrder, s.register, Vanished(sched.snapshotOrder, s.remaining), failing);
    if d.panicked then DiffResult(s.remaining, d.calls, Stop) else DiffResult(s.current, d.calls, Continue)
  }

  /**
   * One iteration of the polling loop for `name`, given the answer of the query: stop
   * when the entry is gone or closed, skip on a query error, seed on the first poll,
   * diff on every later one.
   */
  function Tick(t: Table, name: string, poll: Result<seq<RegistryInfo>, string>, sched: Schedule, failing: set<Listener>): (r: TickResult)
    requires ValidSchedule(t, name, sched)
    ensures name !in t || t[name].closed ==> r == TickResult(t, [], Stop)
    ensures poll.Err? ==> r.calls == [] && r.table == t
    ensures r.table.Keys == t.Keys
    ensures forall n :: n in t && n != name ==> r.table[n] == t[n]
    ensures name in t ==> r.table[name].listeners == t[name].listeners && r.table[name].closed == t[name].closed
    ensures r.calls != [] ==> poll.Ok? && name in t && t[name].snapshot.Some?
    ensures forall c :: c in r.calls ==> name in t && c.listener in t[name].listeners
    ensures r.next == Stop && name in t && !t[name].closed ==> r.calls != [] && r.calls[|r.calls| - 1].listener in failing
    ensures name in t && !t[name].closed && poll.Ok? && r.next == Continue ==> r.table[name].snapshot == Some(IdMap(name, poll.value))
  {
    if name !in t || t[name].closed then TickResult(t, [], Stop)
    else if poll.Err? then TickResult(t, [], Continue)
    else
      var e := t[name];
      match e.snapshot
      case None =>
        TickResult(t[name := e.(snapshot := Some(IdMap(name, poll.value)))], [], Continue)
      case Some(prev) =>
        var d := Diff(name, prev, poll.value, sched, failing);
        TickResult(t[name := e.(snapshot := Some(d.snapshot))], d.calls, d.next)
  }

  /** The first successful poll seeds the snapshot with the polled records and notifies nobody. */
  lemma TickSeeds(t: Table, name: string, poll: seq<RegistryInfo>, sched: Schedule, failing: set<Listener>)
    requires ValidSchedule(t, name, sched)
    requires name in t && !t[name].closed && t[name].snapshot.None?
    ensures Tick(t, name, Ok(poll), sched, failing) == TickResult(t[name := t[name].(snapshot := Some(IdMap(name, poll)))], [], Continue)
  {
  }

  /**
   * A diff over distinct ids with no failing listener: every scheduled listener gets
   * the register batch of new or changed records, then the deregister batch of what
   * vanished, and the snapshot becomes the new id map.
   */
  lemma DiffDelivers(name: string, prev: Snapshot, poll: seq<RegistryInfo>, sched: Schedule, failing: set<Listener>)
    requires Distinct(sched.listenerOrder)
    requires forall i :: 0 <= i < |sched.listenerOrder| ==> sched.listenerOrder[i] !in failing
    requires DistinctIds(poll)
    ensures Diff(name, prev, poll, sched, failing).next == Continue
    ensures forall l :: Received(Diff(name, prev, poll, sched, failing).calls, l) == Expected(l, sched.listenerOrder, RegisterBatch(name, prev, poll), Vanished(sched.snapshotOrder, prev - Ids(poll)))
  {
    ScanRegisterMatches(name, prev, poll);
    DispatchDeliversToEach(sched.listenerOrder, RegisterBatch(name, prev, poll), Vanished(sched.snapshotOrder, prev - Ids(poll)), failing);
  }

  /**
   * A later poll with distinct ids and no failing listener: every subscribed listener
   * gets the register batch, then the deregister batch, nobody else hears anything,
   * and the snapshot becomes the new id map.
   */
  lemma TickDiffs(t: Table, name: string, poll: seq<RegistryInfo>, sched: Schedule, failing: set<Listener>)
    requires ValidSchedule(t, name, sched)
    requires name in t && !t[name].closed && t[name].snapshot.Some?
    requires DistinctIds(poll)
    requires t[name].listeners !! failing
    ensures Tick(t, name, Ok(poll), sched, failing).table == t[name := t[name].(snapshot := Some(IdMap(name, poll)))]
    ensures forall l :: l in t[name].listeners ==>
      Received(Tick(t, name, Ok(poll), sched, failing).calls, l) == ListenerCalls(l, RegisterBatch(name, t[name].snapshot.value, poll), Vanished(sched.snapshotOrder, t[name].snapshot.value - Ids(poll)))
    ensures forall l :: l !in t[name].listeners ==> Received(Tick(t, name, Ok(poll), sched, failing).calls, l) == []
  {
    var prev := t[name].snapshot.value;
    DiffDelivers(name, prev, poll, sched, failing);
    var d := Diff(name, prev, poll, sched, failing);
    assert Tick(t, name, Ok(poll), sched, failing) == TickResult(t[name := t[name].(snapshot := Some(d.snapshot))], d.calls, d.next);
    forall l
      ensures Received(d.calls, l) == (if l in t[name].listeners then ListenerCalls(l, RegisterBatch(name, prev, poll), Vanished(sched.snapshotOrder, prev - Ids(poll))) else [])
    {
      assert l in sched.listenerOrder <==> l in t[name].listeners;
    }
  }

  /** Over a snapshot keyed by id, every record of the batch carries an id of the order. */
  lemma {:induction false} VanishedIdsScheduled(order: seq<string>, remaining: Snapshot)
    requires KeyedById(remaining)
    ensures forall x :: x in Vanished(order, remaining) ==> x.id in order
    decreases |order|
  {
    if order != [] {
      var rest := Vanished(order[1..], remaining);
      VanishedIdsScheduled(order[1..], remaining);
      forall x | x in Vanished(order, remaining)
        ensures x.id in order
      {
        if x in rest {
          assert x.id in order[1..];
        } else {
          assert x == remaining[order[0]].(status := "deregister");
        }
      }
    }
  }

  /** Over a snapshot keyed by id and a repetition-free order, no id is deregistered twice. */
  lemma {:induction false} VanishedDistinctIds(order: seq<string>, remaining: Snapshot)
    requires Distinct(order)
    requires KeyedById(remaining)
    ensures forall i, j :: 0 <= i < j < |Vanished(order, remaining)| ==>
      Vanished(order, remaining)[i].id != Vanished(order, remaining)[j].id
    decreases |order|
  {
    if order != [] {
      var tail := order[1..];
      assert Distinct(tail) by {
        forall i, j | 0 <= i < j < |tail| ensures tail[i] != tail[j] {
          assert tail[i] == order[i + 1] && tail[j] == order[j + 1];
        }
      }
      var rest := Vanished(tail, remaining);
      var head := if order[0] in remaining then [remaining[order[0]].(status := "deregister")] else [];
      var batch := Vanished(order, remaining);
      assert batch == head + rest;
      VanishedDistinctIds(tail, remaining);
      VanishedIdsScheduled(tail, remaining);
      assert order[0] !in tail by {
        forall j | 0 <= j < |tail| ensures tail[j] != order[0] {
          assert tail[j] == order[j + 1];
        }
      }
      forall i, j | 0 <= i < j < |batch|
        ensures batch[i].id != batch[j].id
      {
        if i < |head| {
          assert batch[i].id == order[0];
          assert batch[j] == rest[j - |head|];
          assert batch[j].id in tail;
        } else {
          assert batch[i] == rest[i - |head|] && batch[j] == rest[j - |head|];
        }
      }
    }
  }

  /**
   * The deregister batch of such a tick holds exactly the old records whose id was
   * not polled, each once.
   */
  lemma VanishedAreTheUnpolled(prev: Snapshot, poll: seq<RegistryInfo>, order: seq<string>)
    requires Enumerates(order, prev.Keys)
    requires KeyedById(prev)
    ensures forall x :: x in Vanished(order, prev - Ids(poll)) <==>
      x.id in prev && x.id !in Ids(poll) && x == prev[x.id].(status := "deregister")
    ensures forall i, j :: 0 <= i < j < |Vanished(order, prev - Ids(poll))| ==>
      Vanished(order, prev - Ids(poll))[i].id != Vanished(order, prev - Ids(poll))[j].id
  {
    var remaining := prev - Ids(poll);
    var batch := Vanished(order, remaining);
    VanishedDistinctIds(order, remaining);
    forall x | x in batch
      ensures x.id in prev && x.id !in Ids(poll) && x == prev[x.id].(status := "deregister")
    {
      var id :| id in remaining && x == remaining[id].(status := "deregister");
      assert x.id == id;
    }
  }

  /**
   * A listener that panics ends the diff: it stops, listeners scheduled after the
   * first failing one get nothing, and the snapshot is the old one with every polled
   * id deleted.
   */
  lemma DiffListenerFailure(name: string, prev: Snapshot, poll: seq<RegistryInfo>, sched: Schedule, failing: set<Listener>, k: nat)
    requires Distinct(sched.listenerOrder)
    requires k < |sched.listenerOrder| && sched.listenerOrder[k] in failing
    requires forall j :: 0 <= j < k ==> sched.listenerOrder[j] !in failing
    requires Scan(name, prev, poll).register != [] || Vanished(sched.snapshotOrder, prev - Ids(poll)) != []
    ensures Diff(name, prev, poll, sched, failing).next == Stop
    ensures Diff(name, prev, poll, sched, failing).snapshot == prev - Ids(poll)
    ensures forall j :: k < j < |sched.listenerOrder| ==> Received(Diff(name, prev, poll, sched, failing).calls, sched.listenerOrder[j]) == []
  {
    var s := Scan(name, prev, poll);
    var van := Vanished(sched.snapshotOrder, s.remaining);
    DispatchUpToFailure(sched.listenerOrder, s.register, van, failing, k);
    DispatchFailureSilencesLater(sched.listenerOrder, s.register, van, failing, k);
  }

  /**
   * A listener that panics ends the loop: the tick stops, listeners scheduled after
   * the first failing one get nothing, and the snapshot is left as the old one with
   * every polled id deleted.
   */
  lemma TickListenerFailure(t: Table, name: string, poll: seq<RegistryInfo>, sched: Schedule, failing: set<Listener>, k: nat)
    requires ValidSchedule(t, name, sched)
    requires name in t && !t[name].closed && t[name].snapshot.Some?
    requires k < |sched.listenerOrder| && sched.listenerOrder[k] in failing
    requires forall j :: 0 <= j < k ==> sched.listenerOrder[j] !in failing
    requires Scan(name, t[name].snapshot.value, poll).register != [] || Vanished(sched.snapshotOrder, t[name].snapshot.value - Ids(poll)) != []
    ensures Tick(t, name, Ok(poll), sched, failing).next == Stop
    ensures Tick(t, name, Ok(poll), sched, failing).table[name].snapshot == Some(t[name].snapshot.value - Ids(poll))
    ensures forall j :: k < j < |sched.listenerOrder| ==> Received(Tick(t, name, Ok(poll), sched, failing).calls, sched.listenerOrder[j]) == []
  {
    var prev := t[name].snapshot.value;
    DiffListenerFailure(name, prev, poll, sched, failing, k);
    var d := Diff(name, prev, poll, sched, failing);
    assert Tick(t, name, Ok(poll), sched, failing) == TickResult(t[name := t[name].(snapshot := Some(d.snapshot))], d.calls, d.next);
  }

  /** A register batch taken against a snapshot that already holds every polled record unchanged is empty. */
  lemma {:induction false} RegisterBatchOfUnchanged(name: string, prev: Snapshot, poll: seq<RegistryInfo>)
    requires forall i :: 0 <= i < |poll| ==> !Changed(prev, ConvertService(name, poll[i]))
    ensures RegisterBatch(name, prev, poll) == []
    decreases |poll|
  {
    if poll != [] {
      var front := poll[..|poll| - 1];
      assert forall i :: 0 <= i < |front| ==> front[i] == poll[i];
      RegisterBatchOfUnchanged(name, prev, front);
    }
  }

  /** Diffing a poll against the map it produced itself notifies nobody and keeps the map. */
  lemma DiffOfOwnMap(name: string, poll: seq<RegistryInfo>, sched: Schedule, failing: set<Listener>)
    requires DistinctIds(poll)
    ensures Diff(name, IdMap(name, poll), poll, sched, failing) == DiffResult(IdMap(name, poll), [], Continue)
  {
    var m := IdMap(name, poll);
    var s := Scan(name, m, poll);
    assert s.register == [] by {
      IdMapOfDistinct(name, poll);
      RegisterBatchOfUnchanged(name, m, poll);
      ScanRegisterMatches(name, m, poll);
    }
    assert s.remaining == map[];
    assert Vanished(sched.snapshotOrder, s.remaining) == [] by {
      VanishedOfNothing(sched.snapshotOrder);
    }
    assert !Dispatch(sched.listenerOrder, [], [], failing).panicked;
    assert Dispatch(sched.listenerOrder, [], [], failing).calls == [] by {
      DispatchNothing(sched.listenerOrder, failing);
    }
  }

  /** Nothing left in the snapshot, nothing announced as gone, whatever the iteration order. */
  lemma {:induction false} VanishedOfNothing(order: seq<string>)
    ensures Vanished(order, map[]) == []
    decreases |order|
  {
    if order != [] {
      VanishedOfNothing(order[1..]);
    }
  }

  lemma {:induction false} DispatchNothing(order: seq<Listener>, failing: set<Listener>)
    ensures Dispatch(order, [], [], failing).calls == []
    decreases |order|
  {
    if order != [] {
      DispatchNothing(order[1..], failing);
    }
  }

  /**
   * A snapshot that already is the map of the poll is a fixed point: polling the same
   * distinct-id answer again notifies nobody and changes nothing. A completed tick
   * leaves exactly that snapshot, so two identical polls in a row notify at most once.
   */
  lemma TickIdempotent(t: Table, name: string, poll: seq<RegistryInfo>, sched: Schedule, failing: set<Listener>)
    requires ValidSchedule(t, name, sched)
    requires name in t && !t[name].closed
    requires DistinctIds(poll)
    requires t[name].snapshot == Some(IdMap(name, poll))
    ensures Tick(t, name, Ok(poll), sched, failing) == TickResult(t, [], Continue)
  {
    var m := IdMap(name, poll);
    DiffOfOwnMap(name, poll, sched, failing);
    assert t[name := t[name].(snapshot := Some(m))] == t;
  }

  /** After the last listener unsubscribes, the next tick for that name stops and notifies nobody. */
  lemma UnsubscribedNameStops(t: Table, name: string, l: Listener, poll: Result<seq<RegistryInfo>, string>, sched: Schedule, failing: set<Listener>)
    requires Listeners(t, name) <= {l}
    ensures ValidSchedule(Unsubscribe(t, name, l).table, name, sched)
    ensures Tick(Unsubscribe(t, name, l).table, name, poll, sched, failing) == TickResult(Unsubscribe(t, name, l).table, [], Stop)
  {
    assert Listeners(t, name) - {l} == {};
  }

  /** A tick keeps the table well formed, whatever its outcome. */
  lemma TickPreservesWellFormed(t: Table, name: string, poll: Result<seq<RegistryInfo>, string>, sched: Schedule, failing: set<Listener>)
    requires WellFormed(t)
    requires ValidSchedule(t, name, sched)
    ensures WellFormed(Tick(t, name, poll, sched, failing).table)
  {
  }
}

=== FILE: eureka_registry.dfy ===
/**
 * The Eureka service registry (commons/registry/eureka/registry.go) apart from its
 * polling step: the subscription table and its transitions, the conversion of
 * server records into `ServerInstance`s, `Lookup`, and what `Register` validates
 * and builds before handing the record to the client.
 *
 * The table maps a service name to its listener set, its last snapshot (`None`
 * until the first poll) and whether its cancellation signal was closed. Every
 * operation is a pure function from the old table to the new one; an operation
 * that closes signals also reports which names it closed.
 */
module EurekaRegistry {
  import opened Wrappers
  import opened Text
  import opened RegistryModel
  import opened EurekaApi
  import EurekaAttrs

  /** Instances of one service keyed by instance id. */
  type Snapshot = map<string, ServerInstance>

  /** `subscribeInfo`. */
  datatype Entry = Entry(listeners: set<Listener>, snapshot: Option<Snapshot>, closed: bool)

  type Table = map<string, Entry>

  /** A table after an operation, with the names whose cancellation signal the operation closed. */
  datatype Change = Change(table: Table, closed: set<string>)

  /** The listeners of `name`, none when it has no entry. */
  function Listeners(t: Table, name: string): set<Listener> {
    if name in t then t[name].listeners else {}
  }

  /** Every snapshot entry is stored under its own instance id. */
  predicate KeyedById(s: Snapshot) {
    forall id :: id in s ==> s[id].id == id
  }

  /**
   * The shape the operations keep: every entry in the table is open, has at least
   * one listener, and keys its snapshot by instance id.
   */
  predicate WellFormed(t: Table) {
    forall name :: name in t ==>
      && !t[name].closed
      && t[name].listeners != {}
      && (t[name].snapshot.Some? ==> KeyedById(t[name].snapshot.value))
  }

  /** `getOrCreateSubscribe`: the entry for `name`, added open, empty and unpolled if missing. */
  function GetOrCreateSubscribe(t: Table, name: string): (r: (Table, Entry))
    ensures r.0.Keys == t.Keys + {name} && r.0[name] == r.1
    ensures name in t ==> r.0 == t
    ensures name !in t ==> r.1 == Entry({}, None, false)
    ensures forall n :: n in t ==> r.0[n] == t[n]
  {
    if name in t then (t, t[name])
    else
      var e := Entry({}, None, false);
      (t[name := e], e)
  }

  lemma SingletonSet<T>(s: set<T>, x: T)
    requires x in s
    ensures |s| == 1 <==> s == {x}
  {
    if |s| == 1 {
      assert |s - {x}| == 0;
      assert s - {x} == {};
    }
  }

  /**
   * `addSubscribe`: adds the listener to the name's set (creating the entry first
   * if needed) and reports whether the set now holds exactly one listener.
   */
  function AddSubscribe(t: Table, name: string, listener: Listener): (r: (Table, bool))
    ensures r.0.Keys == t.Keys + {name}
    ensures r.0[name].listeners == Listeners(t, name) + {listener}
    ensures r.0[name].snapshot == (if name in t then t[name].snapshot else None)
    ensures r.0[name].closed == (name in t && t[name].closed)
    ensures r.1 <==> r.0[name].listeners == {listener}
    ensures forall n :: n in t && n != name ==> r.0[n] == t[n]
  {
    var (t1, e) := GetOrCreateSubscribe(t, name);
    var e1 := e.(listeners := e.listeners + {listener});
    SingletonSet(e1.listeners, listener);
    (t1[name := e1], |e1.listeners| == 1)
  }

  /**
   * `Subscribe`: only the table update; the start of the polling loop is commented
   * out in the source, so subscribing never starts a poll.
   */
  function Subscribe(t: Table, name: string, listener: Listener): (r: Table)
    ensures r.Keys == t.Keys + {name}
    ensures r[name].listeners == Listeners(t, name) + {listener}
    ensures name in t ==> r[name] == t[name].(listeners := t[name].listeners + {listener})
    ensures name !in t ==> r[name] == Entry({listener}, None, false)
    ensures forall n :: n in t && n != name ==> r[n] == t[n]
  {
    AddSubscribe(t, name, listener).0
  }

  /** Subscribing is idempotent: adding the same listener again changes nothing. */
  lemma SubscribeIdempotent(t: Table, name: string, listener: Listener)
    ensures Subscribe(Subscribe(t, name, listener), name, listener) == Subscribe(t, name, listener)
  {
    var t1 := Subscribe(t, name, listener);
    var t2 := Subscribe(t1, name, listener);
    assert t1[name].listeners + {listener} == t1[name].listeners;
    assert t2[name] == t1[name];
    assert t2.Keys == t1.Keys;
  }

  /**
   * "First listener" is judged by the set's size after the add, so adding the sole
   * listener a second time reports "first" again.
   */
  lemma ReAddingSoleListenerReportsFirst(t: Table, name: string, listener: Listener)
    requires Listeners(t, name) <= {listener}
    ensures AddSubscribe(t, name, listener).1
    ensures AddSubscribe(Subscribe(t, name, listener), name, listener).1
  {
    assert Listeners(t, name) + {listener} == {listener};
    var t1 := Subscribe(t, name, listener);
    assert Listeners(t1, name) + {listener} == {listener};
  }

  /**
   * `removeSubscribe`: removes the listener from the name's set (creating the
   * entry first if needed) and reports whether the set is now empty.
   */
  function RemoveSubscribe(t: Table, name: string, listener: Listener): (r: (Table, bool))
    ensures r.0.Keys == t.Keys + {name}
    ensures r.0[name].listeners == Listeners(t, name) - {listener}
    ensures r.0[name] == (if name in t then t[name] else Entry({}, None, false)).(listeners := Listeners(t, name) - {listener})
    ensures r.1 <==> Listeners(t, name) - {listener} == {}
    ensures forall n :: n in t && n != name ==> r.0[n] == t[n]
  {
    var (t1, e) := GetOrCreateSubscribe(t, name);
    var e1 := e.(listeners := e.listeners - {listener});
    (t1[name := e1], |e1.listeners| == 0)
  }

  /**
   * `Unsubscribe`: removes the listener; when none is left, the entry's signal is
   * closed and the entry deleted. A name that was never subscribed is created,
   * found empty, closed and deleted, which leaves the table as it was.
   */
  function Unsubscribe(t: Table, name: string, listener: Listener): (r: Change)
    ensures name in r.table <==> Listeners(t, name) - {listener} != {}
    ensures r.closed == (if Listeners(t, name) - {listener} == {} then {name} else {})
    ensures name in r.table ==> r.table[name] == t[name].(listeners := t[name].listeners - {listener})
    ensures forall n :: n != name ==> (n in r.table <==> n in t)
    ensures forall n :: n in t && n != name ==> r.table[n] == t[n]
  {
    var (t1, last) := RemoveSubscribe(t, name, listener);
    if last then Change(t1 - {name}, {name}) else Change(t1, {})
  }

  /** Unsubscribing from a name nobody subscribed to closes a fresh signal and leaves the table unchanged. */
  lemma UnsubscribeUnknownName(t: Table, name: string, listener: Listener)
    requires name !in t
    ensures Unsubscribe(t, name, listener).table == t
    ensures Unsubscribe(t, name, listener).closed == {name}
  {
    assert Unsubscribe(t, name, listener).table.Keys == t.Keys;
  }

  /**
   * `Shutdown`: walks the table, closing each entry's signal and deleting it, until
   * nothing is left; every name the table held has been closed exactly once.
   */
  method Shutdown(t: Table) returns (r: Change)
    ensures r.table == map[]
    ensures r.closed == t.Keys
  {
    var table := t;
    var closed: set<string> := {};
    while table.Keys != {}
      invariant table.Keys + closed == t.Keys
      invariant table.Keys !! closed
      invariant forall n :: n in table ==> table[n] == t[n]
      decreases table.Keys
    {
      var name :| name in table.Keys;
      closed := closed + {name};
      table := table - {name};
    }
    assert table == map[];
    r := Change(table, closed);
  }

  /** Subscribe, Unsubscribe and removing a name all keep the table well formed. */
  lemma SubscribePreservesWellFormed(t: Table, name: string, listener: Listener)
    requires WellFormed(t)
    ensures WellFormed(Subscribe(t, name, listener))
  {
  }

  lemma UnsubscribePreservesWellFormed(t: Table, name: string, listener: Listener)
    requires WellFormed(t)
    ensures WellFormed(Unsubscribe(t, name, listener).table)
  {
    var r := Unsubscribe(t, name, listener);
    forall n | n in r.table
      ensures !r.table[n].closed && r.table[n].listeners != {}
      ensures r.table[n].snapshot.Some? ==> KeyedById(r.table[n].snapshot.value)
    {
      if n == name {
        assert r.table[n].listeners == Listeners(t, name) - {listener};
      }
    }
  }

  /** `uint(x)` for a 64-bit `x`: negative values wrap around modulo 2^64. */
  function Uint(x: int): (u: nat)
    requires MinInt64 <= x <= MaxInt64
    ensures u < 0x1_0000_0000_0000_0000
    ensures u % 0x1_0000_0000_0000_0000 == x % 0x1_0000_0000_0000_0000
    ensures 0 <= x ==> u == x
  {
    if x < 0 then x + 0x1_0000_0000_0000_0000 else x
  }

  /**
   * `convertService`: the server's record as a `ServerInstance` of the requested
   * service: id from the instance id, address `ip:port`, the VIP address as sole tag,
   * the metadata as reported, and status UP renamed OK, every other status kept.
   */
  function ConvertService(serverName: string, service: RegistryInfo): (si: ServerInstance)
    ensures si.id == service.instanceId
  {
    var status := if service.status == UP then "OK" else service.status;
    ServerInstance(
      id := service.instanceId,
      name := serverName,
      address := Endpoint(service.ipAddr, service.port.port),
      tags := [service.vipAddress],
      metadata := service.metadata,
      status := status,
      pluginAttrs := None)
  }

  /**
   * What the conversion keeps of a reported instance: the subscribed service name,
   * the VIP address as the only tag, the metadata, and the status, except that an
   * UP instance reads "OK"; a converted instance carries no Eureka attributes.
   */
  lemma ConvertedInstanceFields(serverName: string, service: RegistryInfo)
    ensures ConvertService(serverName, service).name == serverName
    ensures ConvertService(serverName, service).tags == [service.vipAddress]
    ensures ConvertService(serverName, service).metadata == service.metadata
    ensures ConvertService(serverName, service).pluginAttrs.None?
    ensures ConvertService(serverName, service).status == "OK" <==> service.status in {UP, "OK"}
    ensures service.status != UP ==> ConvertService(serverName, service).status == service.status
  {
  }

  /**
   * The converted address reads back as the reported IP and port, so it is an
   * address `Register` accepts.
   */
  lemma ConvertedAddressRoundTrip(serverName: string, service: RegistryInfo)
    requires PlainAddrPart(service.ipAddr)
    requires MinInt64 <= service.port.port <= MaxInt64
    ensures SplitHostPort(ConvertService(serverName, service).address)
         == Ok((service.ipAddr, IntToString(service.port.port)))
    ensures Atoi(IntToString(service.port.port)) == Ok(service.port.port)
  {
    SplitHostPortOfJoin(service.ipAddr, IntToString(service.port.port));
    AtoiOfIntToString(service.port.port);
  }

  /**
   * Conversion keeps statuses apart except that a reported "OK" cannot be told from
   * UP: a change between two statuses is visible after conversion unless it is UP/OK.
   */
  lemma ConvertedStatusesDiffer(serverName: string, a: RegistryInfo, b: RegistryInfo)
    ensures ConvertService(serverName, a).status == ConvertService(serverName, b).status
        <==> a.status == b.status || (a.status in {UP, "OK"} && b.status in {UP, "OK"})
  {
  }

  /**
   * `Lookup`: the backend's answer to the query for the service, converted element
   * by element in the same order; `tags` is ignored and a query error is returned as is.
   */
  method Lookup(serverName: string, tags: seq<string>, query: Result<seq<RegistryInfo>, string>)
    returns (r: Result<seq<ServerInstance>, string>)
    ensures query.Err? ==> r == Err(query.error)
    ensures query.Ok? ==> r.Ok? && |r.value| == |query.value|
    ensures query.Ok? ==> forall i :: 0 <= i < |query.value| ==> r.value[i] == ConvertService(serverName, query.value[i])
  {
    match query
    case Err(e) =>
      r := Err(e);
    case Ok(services) =>
      var serverInstances: seq<ServerInstance> := [];
      var i := 0;
      while i < |services|
        invariant 0 <= i <= |services|
        invariant |serverInstances| == i
        invariant forall j :: 0 <= j < i ==> serverInstances[j] == ConvertService(serverName, services[j])
      {
        serverInstances := serverInstances + [ConvertService(serverName, services[i])];
        i := i + 1;
      }
      r := Ok(serverInstances);
  }

  /** Why `Register` refused an instance before contacting the server. */
  datatype RegisterError = AddressError(addrError: AddrError) | NumberError(numError: NumError)

  /**
   * What `Register` does with an instance: builds the registration record it hands
   * to the client, returns an error, or panics because the instance does not carry
   * the Eureka attribute record.
   */
  datatype Registration = Registered(payload: EurekaInstance) | Rejected(error: RegisterError) | AttrsPanic

  /**
   * `Register` up to the client call: the address must split into host and port and
   * the port must be an integer; then the three lease attributes must be integers,
   * reported in the order Deregister, Interval, RequestTimeout; the record is
   * `NewInstanceInfo(host, port, …)` with the lease set from those integers.
   */
  function Register(serverInstance: ServerInstance): (r: Registration)
    ensures r.AttrsPanic? <==> serverInstance.pluginAttrs.None?
    ensures r.Rejected? && r.error.AddressError? <==>
      serverInstance.pluginAttrs.Some? && SplitHostPort(serverInstance.address).Err?
    ensures serverInstance.pluginAttrs.Some? && SplitHostPort(serverInstance.address).Err? ==>
      r == Rejected(AddressError(SplitHostPort(serverInstance.address).error))
    ensures
      && serverInstance.pluginAttrs.Some?
      && SplitHostPort(serverInstance.address).Ok?
      && Atoi(SplitHostPort(serverInstance.address).value.1).Err?
      ==>
      r == Rejected(NumberError(NumError(SplitHostPort(serverInstance.address).value.1)))
    ensures r.Registered? ==>
      && SplitHostPort(serverInstance.address).Ok?
      && r.payload.ipAddr == SplitHostPort(serverInstance.address).value.0
      && Atoi(SplitHostPort(serverInstance.address).value.1) == Ok(r.payload.port.port)
      && r.payload.(leaseInfo := None) == NewInstanceInfo(r.payload.ipAddr, r.payload.port.port, serverInstance)
    ensures r.Registered? ==>
      var attrs := serverInstance.pluginAttrs.value;
      && r.payload.leaseInfo.Some?
      && Atoi(attrs.deregister) == Ok(r.payload.leaseInfo.value.durationInSecs)
      && Atoi(attrs.interval) == Ok(r.payload.leaseInfo.value.renewalIntervalInSecs)
      && Atoi(attrs.requestTimeout).Ok?
      && r.payload.leaseInfo.value.evictionDurationInSecs == Uint(Atoi(attrs.requestTimeout).value)
  {
    match serverInstance.pluginAttrs
    case None => AttrsPanic
    case Some(attrs) =>
      match SplitHostPort(serverInstance.address)
      case Err(e) => Rejected(AddressError(e))
      case Ok((host, portStr)) =>
        match Atoi(portStr)
        case Err(e) => Rejected(NumberError(e))
        case Ok(port) =>
          var timeOut := Atoi(attrs.requestTimeout);
          var renewal := Atoi(attrs.interval);
          var eviction := Atoi(attrs.deregister);
          if eviction.Err? then Rejected(NumberError(eviction.error))
          else if renewal.Err? then Rejected(NumberError(renewal.error))
          else if timeOut.Err? then Rejected(NumberError(timeOut.error))
          else
            var lease := LeaseInfo(
              evictionDurationInSecs := Uint(timeOut.value),
              renewalIntervalInSecs := renewal.value,
              durationInSecs := eviction.value);
            Registered(NewInstanceInfo(host, port, serverInstance).(leaseInfo := Some(lease)))
  }

  /**
   * With a well-formed address, the first malformed attribute in the order
   * Deregister, Interval, RequestTimeout is the one reported.
   */
  lemma RegisterErrorPrecedence(serverInstance: ServerInstance)
    requires serverInstance.pluginAttrs.Some?
    requires SplitHostPort(serverInstance.address).Ok?
    requires Atoi(SplitHostPort(serverInstance.address).value.1).Ok?
    ensures var attrs := serverInstance.pluginAttrs.value;
      && (Atoi(attrs.deregister).Err? ==>
            Register(serverInstance) == Rejected(NumberError(NumError(attrs.deregister))))
      && (Atoi(attrs.deregister).Ok? && Atoi(attrs.interval).Err? ==>
            Register(serverInstance) == Rejected(NumberError(NumError(attrs.interval))))
      && (Atoi(attrs.deregister).Ok? && Atoi(attrs.interval).Ok? && Atoi(attrs.requestTimeout).Err? ==>
            Register(serverInstance) == Rejected(NumberError(NumError(attrs.requestTimeout))))
      && (Atoi(attrs.deregister).Ok? && Atoi(attrs.interval).Ok? && Atoi(attrs.requestTimeout).Ok? ==>
            Register(serverInstance).Registered?)
  {
  }

  /**
   * An instance advertised at `host:port` with whole-second attributes registers at
   * exactly that host and port with exactly those lease values.
   */
  lemma RegisterRoundTrip(serverInstance: ServerInstance, host: string, port: int, interval: int, deregister: int, timeout: int)
    requires PlainAddrPart(host)
    requires MinInt64 <= port <= MaxInt64
    requires MinInt64 <= interval <= MaxInt64 && MinInt64 <= deregister <= MaxInt64 && MinInt64 <= timeout <= MaxInt64
    requires serverInstance.address == Endpoint(host, port)
    requires serverInstance.pluginAttrs.Some?
    requires serverInstance.pluginAttrs.value.interval == IntToString(interval)
    requires serverInstance.pluginAttrs.value.deregister == IntToString(deregister)
    requires serverInstance.pluginAttrs.value.requestTimeout == IntToString(timeout)
    ensures Register(serverInstance).Registered?
    ensures Register(serverInstance).payload.ipAddr == host
    ensures Register(serverInstance).payload.port == Port(port, true)
    ensures Register(serverInstance).payload.leaseInfo == Some(LeaseInfo(Uint(timeout), interval, deregister))
  {
    SplitHostPortOfJoin(host, IntToString(port));
    AtoiOfIntToString(port);
    AtoiOfIntToString(interval);
    AtoiOfIntToString(deregister);
    AtoiOfIntToString(timeout);
  }

  /**
   * An instance still carrying the default attributes is never registered: its
   * address is refused, or else the Deregister default "120m" is.
   */
  lemma DefaultAttrsAreRejected(serverInstance: ServerInstance)
    requires serverInstance.pluginAttrs == Some(EurekaAttrs.NewInstance())
    ensures Register(serverInstance).Rejected?
    ensures SplitHostPort(serverInstance.address).Ok? && Atoi(SplitHostPort(serverInstance.address).value.1).Ok?
      ==> Register(serverInstance) == Rejected(NumberError(NumError("120m")))
  {
    EurekaAttrs.DefaultDurationsAreNotIntegers();
  }
}

=== FILE: registry.dfy ===
/**
 * The backend-independent instance model: the `ServerInstance` record every
 * backend converts to and from, the two notification kinds, and listeners.
 */
module RegistryModel {
  import opened Wrappers
  import EurekaAttrs

  /** Which kind of batch a notification carries. */
  datatype RegistionStatus = REGISTER | UNREGISTER

  /**
   * `ServerInstance`. `pluginAttrs` is `Some` exactly when the instance carries the
   * Eureka backend's attribute record; `None` stands for nil or another backend's record.
   */
  datatype ServerInstance = ServerInstance(
    id: string,
    name: string,
    address: string,
    tags: seq<string>,
    metadata: map<string, string>,
    status: string,
    pluginAttrs: Option<EurekaAttrs.EurekaServiceAttrs>)

  /** A subscriber, identified as Go compares interface values: by identity. */
  datatype Listener = Listener(handle: nat)
}

=== FILE: text.dfy ===
/**
 * The few pieces of Go's standard library the Eureka backend leans on, stated over
 * `string` (a sequence of characters): `%d` formatting, `strconv.Atoi`, the
 * unbracketed form of `net.SplitHostPort`, and splitting a path on a separator.
 */
module Text {
  import opened Wrappers

  predicate IsDigit(c: char) {
    '0' <= c <= '9'
  }

  predicate AllDigits(s: string) {
    forall i :: 0 <= i < |s| ==> IsDigit(s[i])
  }

  function DigitChar(d: nat): (c: char)
    requires d < 10
    ensures IsDigit(c) && c as int - '0' as int == d
  {
    (('0' as int) + d) as char
  }

  function DigitValue(c: char): nat
    requires IsDigit(c)
  {
    (c as int) - ('0' as int)
  }

  /** Decimal digits of `n`, most significant first, without leading zeros. */
  function NatToString(n: nat): (s: string)
    ensures 1 <= |s| && AllDigits(s)
    ensures |s| > 1 ==> s[0] != '0'
    decreases n
  {
    if n < 10 then [DigitChar(n)] else NatToString(n / 10) + [DigitChar(n % 10)]
  }

  /** `fmt.Sprintf("%d", n)`: a minus sign for negative numbers, then the digits. */
  function IntToString(n: int): (s: string)
    ensures 1 <= |s|
    ensures s[0] == '-' <==> n < 0
    ensures ':' !in s && '[' !in s && ']' !in s && '/' !in s
  {
    if n < 0 then "-" + NatToString(-n) else NatToString(n)
  }

  /** The number a string of decimal digits denotes. */
  function DigitsValue(s: string): nat
    requires AllDigits(s)
    decreases |s|
  {
    if s == [] then 0 else 10 * DigitsValue(s[..|s| - 1]) + DigitValue(s[|s| - 1])
  }

  const MinInt64: int := -0x8000_0000_0000_0000
  const MaxInt64: int := 0x7FFF_FFFF_FFFF_FFFF

  /** `strconv.NumError` as `Atoi` reports it: the offending input. */
  datatype NumError = NumError(num: string)

  /** The text after an optional leading `+` or `-`. */
  function Unsigned(s: string): (u: string)
    ensures |u| <= |s| && u == s[|s| - |u|..]
  {
    if |s| > 0 && (s[0] == '+' || s[0] == '-') then s[1..] else s
  }

  /** An optional sign followed by at least one decimal digit, nothing else. */
  predicate IsDecimal(s: string) {
    1 <= |Unsigned(s)| && AllDigits(Unsigned(s))
  }

  function DecimalValue(s: string): int
    requires IsDecimal(s)
  {
    var magnitude: int := DigitsValue(Unsigned(s));
    if s[0] == '-' then -magnitude else magnitude
  }

  /**
   * `strconv.Atoi` on a 64-bit platform: a signed decimal whose value fits in
   * an `int`; any other text is an error naming that text.
   */
  function Atoi(s: string): (r: Result<int, NumError>)
    ensures r.Ok? ==> IsDecimal(s) && r.value == DecimalValue(s)
    ensures r.Ok? ==> MinInt64 <= r.value <= MaxInt64
    ensures IsDecimal(s) && MinInt64 <= DecimalValue(s) <= MaxInt64 ==> r == Ok(DecimalValue(s))
    ensures r.Err? ==> r.error == NumError(s)
  {
    if IsDecimal(s) && MinInt64 <= DecimalValue(s) <= MaxInt64 then Ok(DecimalValue(s))
    else Err(NumError(s))
  }

  /** A character other than a digit anywhere after the first position makes `Atoi` fail. */
  lemma AtoiRejectsNonDigit(s: string, i: nat)
    requires 0 < i < |s| && !IsDigit(s[i])
    ensures Atoi(s).Err?
  {
    var u := Unsigned(s);
    if 1 <= |u| {
      assert u[i - (|s| - |u|)] == s[i];
    }
  }

  lemma {:induction false} DigitsValueOfNatToString(n: nat)
    ensures DigitsValue(NatToString(n)) == n
    decreases n
  {
    if n >= 10 {
      var s := NatToString(n);
      DigitsValueOfNatToString(n / 10);
      assert s[..|s| - 1] == NatToString(n / 10);
    }
  }

  lemma AtoiOfNatToString(n: nat)
    requires n <= MaxInt64
    ensures Atoi(NatToString(n)) == Ok(n)
  {
    var s := NatToString(n);
    assert IsDigit(s[0]);
    assert Unsigned(s) == s;
    DigitsValueOfNatToString(n);
  }

  lemma AtoiOfNegated(n: nat)
    requires 0 < n <= -MinInt64
    ensures Atoi("-" + NatToString(n)) == Ok(-(n as int))
  {
    var d := NatToString(n);
    var s := "-" + d;
    assert s[0] == '-';
    assert Unsigned(s) == d;
    DigitsValueOfNatToString(n);
  }

  /** `Atoi` reads back every `int` that `%d` prints. */
  lemma AtoiOfIntToString(n: int)
    requires MinInt64 <= n <= MaxInt64
    ensures Atoi(IntToString(n)) == Ok(n)
  {
    if n < 0 {
      AtoiOfNegated(-n);
    } else {
      AtoiOfNatToString(n);
    }
  }

  /** The position of the last `c` in `s`, or -1 when there is none. */
  function LastIndex(s: string, c: char): (i: int)
    ensures -1 <= i < |s|
    ensures 0 <= i ==> s[i] == c && c !in s[i + 1..]
    ensures i < 0 ==> c !in s
    decreases |s|
  {
    if s == [] then -1
    else if s[|s| - 1] == c then |s| - 1
    else LastIndex(s[..|s| - 1], c)
  }

  datatype AddrProblem = MissingPort | TooManyColons | UnexpectedOpenBracket | UnexpectedCloseBracket

  /** `net.AddrError`: the address and why it was refused. */
  datatype AddrError = AddrError(addr: string, why: AddrProblem)

  /**
   * `net.SplitHostPort` for addresses without IPv6 brackets: the port is what
   * follows the last colon, and the host may hold no further colon and the
   * address no bracket at all.
   */
  function SplitHostPort(hostport: string): (r: Result<(string, string), AddrError>)
    ensures r.Ok? ==> hostport == r.value.0 + ":" + r.value.1
    ensures r.Ok? ==> ':' !in r.value.0 && ':' !in r.value.1
    ensures r.Ok? ==> '[' !in hostport && ']' !in hostport
    ensures r.Err? ==> r.error.addr == hostport
    ensures r.Err? && r.error.why == MissingPort <==> ':' !in hostport
  {
    var i := LastIndex(hostport, ':');
    if i < 0 then Err(AddrError(hostport, MissingPort))
    else
      var host := hostport[..i];
      assert hostport == host + ":" + hostport[i + 1..];
      if ':' in host then Err(AddrError(hostport, TooManyColons))
      else if '[' in hostport then Err(AddrError(hostport, UnexpectedOpenBracket))
      else if ']' in hostport then Err(AddrError(hostport, UnexpectedCloseBracket))
      else Ok((host, hostport[i + 1..]))
  }

  /** A host or port that `SplitHostPort` passes through unchanged. */
  predicate PlainAddrPart(s: string) {
    ':' !in s && '[' !in s && ']' !in s
  }

  /** Joining a plain host and port with a colon and splitting again gives both back. */
  lemma SplitHostPortOfJoin(host: string, port: string)
    requires PlainAddrPart(host) && PlainAddrPart(port)
    ensures SplitHostPort(host + ":" + port) == Ok((host, port))
  {
    var hp := host + ":" + port;
    var i := LastIndex(hp, ':');
    assert hp[|host|] == ':';
    assert hp[|host| + 1..] == port;
    assert forall j :: |host| < j < |hp| ==> hp[j] == port[j - |host| - 1];
    assert forall j :: 0 <= j < |host| ==> hp[j] == host[j];
    assert hp[..i] == host;
  }

  /** `strings.Split(s, string(sep))`: the pieces between separators, always at least one. */
  function Split(s: string, sep: char): (parts: seq<string>)
    ensures |parts| >= 1
    decreases |s|
  {
    if s == [] then [""]
    else
      var rest := Split(s[1..], sep);
      if s[0] == sep then [""] + rest else [[s[0]] + rest[0]] + rest[1..]
  }

  lemma {:induction false} SplitWithoutSeparator(x: string, sep: char)
    requires sep !in x
    ensures Split(x, sep) == [x]
    decreases |x|
  {
    if x != [] {
      SplitWithoutSeparator(x[1..], sep);
      assert [x[0]] + x[1..] == x;
    }
  }

  lemma {:induction false} SplitAtSeparator(x: string, y: string, sep: char)
    requires sep !in x
    ensures Split(x + [sep] + y, sep) == [x] + Split(y, sep)
    decreases |x|
  {
    if x != [] {
      SplitAtSeparator(x[1..], y, sep);
      assert (x + [sep] + y)[1..] == x[1..] + [sep] + y;
      assert [x[0]] + x[1..] == x;
    } else {
      assert (x + [sep] + y)[1..] == y;
    }
  }
}

=== FILE: try.dfy ===
/**
 * Go's panic/recover turned into values (commons/try.go). A function call either
 * completes or panics with a value; `Catch` normalises what `recover()` returned
 * into an error, and `Try`/`TryFinally` record which callbacks ran, in order, and
 * which panic, if any, leaves the call.
 */
module Try {
  import opened Wrappers

  /** An `error` value; two errors are the same error when they are equal. */
  datatype Error = Error(message: string)

  /**
   * What `recover()` hands back: nil (no panic, or `panic(nil)`), an `error`, a
   * `string`, or any other value, which `%v` prints as `formatted`.
   */
  datatype PanicValue = NilValue | ErrorValue(err: Error) | StringValue(text: string) | OtherValue(formatted: string)

  /** How a callback ended. */
  datatype Outcome = Normal | Panic(value: PanicValue)

  /** The value `recover()` returns inside a deferred function after a call ended with `o`. */
  function Recovered(o: Outcome): (v: PanicValue)
    ensures o.Normal? ==> v == NilValue
  {
    match o
    case Normal => NilValue
    case Panic(v) => v
  }

  /** `Catch`: nil stays nil, an error is kept as it is, anything else becomes a new error carrying its text. */
  function Catch(v: PanicValue): (e: Option<Error>)
    ensures e.None? <==> v == NilValue
    ensures v.ErrorValue? ==> e == Some(v.err)
    ensures v.StringValue? ==> e == Some(Error(v.text))
    ensures v.OtherValue? ==> e == Some(Error(v.formatted))
  {
    match v
    case NilValue => None
    case ErrorValue(err) => Some(err)
    case StringValue(text) => Some(Error(text))
    case OtherValue(formatted) => Some(Error(formatted))
  }

  /** The callbacks a `Try` or `TryFinally` call runs. */
  datatype Step = Fun | Handler(err: Error) | Finally

  /** The callbacks that ran, in order, and the panic that escapes the call, if any. */
  datatype Run = Run(steps: seq<Step>, escaping: Option<PanicValue>)

  function HandlerCalls(steps: seq<Step>): nat
    decreases |steps|
  {
    if steps == [] then 0
    else HandlerCalls(steps[..|steps| - 1]) + (if steps[|steps| - 1].Handler? then 1 else 0)
  }

  function FinallyCalls(steps: seq<Step>): nat
    decreases |steps|
  {
    if steps == [] then 0
    else FinallyCalls(steps[..|steps| - 1]) + (if steps[|steps| - 1].Finally? then 1 else 0)
  }

  /**
   * `Try(fun, handler)`: `fun` runs; the deferred function passes `Catch(recover())`
   * to `handler` when it is not nil. The panic of `fun` is always recovered; only a
   * panic of `handler` itself leaves the call.
   */
  function Try(fun: Outcome, handler: Outcome): (r: Run)
    ensures |r.steps| >= 1 && r.steps[0] == Fun
    ensures r.escaping.Some? ==> fun.Panic? && handler.Panic? && r.escaping == Some(handler.value)
    ensures fun.Panic? && fun.value != NilValue && handler.Panic? ==> r.escaping == Some(handler.value)
  {
    match Catch(Recovered(fun))
    case None => Run([Fun], None)
    case Some(e) => Run([Fun, Handler(e)], if handler.Panic? then Some(handler.value) else None)
  }

  /** A call that completes never reaches the handler. */
  lemma TryNormalSkipsHandler(handler: Outcome)
    ensures HandlerCalls(Try(Normal, handler).steps) == 0
    ensures Try(Normal, handler).escaping == None
  {
    assert Try(Normal, handler).steps == [Fun];
  }

  /**
   * A panic with a non-nil value reaches the handler exactly once, with
   * `Catch(v)`, and escapes only if the handler itself panics.
   */
  lemma TryPanicCallsHandlerOnce(v: PanicValue, handler: Outcome)
    requires v != NilValue
    ensures HandlerCalls(Try(Panic(v), handler).steps) == 1
    ensures Handler(Catch(v).value) in Try(Panic(v), handler).steps
    ensures handler.Normal? ==> Try(Panic(v), handler).escaping == None
    ensures handler.Panic? ==> Try(Panic(v), handler).escaping == Some(handler.value)
  {
    var steps := Try(Panic(v), handler).steps;
    assert steps == [Fun, Handler(Catch(v).value)];
    assert steps[..1] == [Fun];
    assert [Fun][..0] == [];
  }

  /**
   * `TryFinally(fun, handler, finallyFn)`: `finallyFn` is deferred around `Try`, so it
   * runs after everything `Try` runs, whether or not the handler panicked; a panic of
   * `finallyFn` replaces the one in flight.
   */
  function TryFinally(fun: Outcome, handler: Outcome, finallyFn: Outcome): (r: Run)
    ensures r.steps == Try(fun, handler).steps + [Finally]
    ensures finallyFn.Normal? ==> r.escaping == Try(fun, handler).escaping
    ensures finallyFn.Panic? ==> r.escaping == Some(finallyFn.value)
  {
    var t := Try(fun, handler);
    Run(t.steps + [Finally], if finallyFn.Panic? then Some(finallyFn.value) else t.escaping)
  }

  /** `finallyFn` runs exactly once and last, in every combination of outcomes. */
  lemma TryFinallyRunsFinallyOnceLast(fun: Outcome, handler: Outcome, finallyFn: Outcome)
    ensures FinallyCalls(TryFinally(fun, handler, finallyFn).steps) == 1
    ensures TryFinally(fun, handler, finallyFn).steps[|TryFinally(fun, handler, finallyFn).steps| - 1] == Finally
    ensures HandlerCalls(TryFinally(fun, handler, finallyFn).steps) == HandlerCalls(Try(fun, handler).steps)
  {
    var t := Try(fun, handler).steps;
    var s := t + [Finally];
    assert s[..|s| - 1] == t;
    assert FinallyCalls(t) == 0 by {
      assert [Fun][..0] == [];
      if |t| == 2 {
        assert t[..1] == [Fun];
      }
    }
  }
}

=== FILE: wrappers.dfy ===
/** Failure-carrying datatypes shared by the whole model. */
module Wrappers {

  /** A value that may be absent: Go's nil pointer, nil map or missing key. */
  datatype Option<+T> = None | Some(value: T)

  /** Go's `(value, error)` return pair, with exactly one side present. */
  datatype Result<+T, +E> = Ok(value: T) | Err(error: E)
}
